=== FILE: README.md ===
# Uakino provider: the string and list logic, in Dafny

The Uakino provider is a CloudStream extension that scrapes the Ukrainian site
`uakino.club`. Around its HTTP and HTML glue it makes a handful of decisions on
plain strings and lists. This project models those decisions and proves what
they guarantee:

- which home-page tiles `getMainPage` drops, and what each tile becomes;
- how `load` folds the label/value metadata rows into year, tags, actors and
  rating text;
- how `load` classifies an item (anime film, cartoon, movie, anime, drama or
  serial) from its tags and its URL, and so whether it fetches an episode list;
- the numeric item id cut from a page URL, and the playlist URL built from it;
- the opaque episode data `"$href,$name"` and its decoding by `split(",")` in
  `loadLinks`;
- the de-duplication of episodes by name;
- the `https:` prefix added to player links, and the playlist URL cut out of
  the player script;
- the two pipelines `load` and `loadLinks`, as functions of what the network
  would return.

The model follows Kotlin's semantics:

- `contains` is a literal substring test, and `contains("")` always holds;
- `substringBefore` and `substringAfterLast` return the input unchanged when
  the delimiter is missing;
- `split` keeps empty fields;
- `trim` strips the JVM's whitespace characters;
- `toInt` accepts an optional sign, ASCII digits and the `Int` range;
- `distinctBy` keeps the first element of each key.

Modules, one per file:

| file | module | contents |
|---|---|---|
| `wrappers.dfy` | `Wrappers` | `Option` and `Result` |
| `kotlin_strings.dfy` | `KotlinStrings` | substring search, `substringBefore`, `substringAfterLast`, `split`, `trim`, `replace` |
| `kotlin_numbers.dfy` | `KotlinNumbers` | `toIntOrNull` and decimal printing |
| `listing.dfy` | `Listing` | sections, denylist filter, tile mapping, search form |
| `metadata.dfy` | `Metadata` | the metadata fold of `load` |
| `content_type.dfy` | `ContentType` | tag priority and URL fallback |
| `episodes.dfy` | `Episodes` | item id, playlist URL, episode data, de-duplication |
| `streams.dfy` | `Streams` | `https:` normalisation, playlist slice, per-script requests |
| `provider.dfy` | `Provider` | `load` and `loadLinks` over injected fetch results |

All paths below are relative to the repository root. `UakinoProvider.kt`
stands for `UakinoProvider/src/main/kotlin/com/lagradost/UakinoProvider.kt`.

Some behaviour of the code is worth knowing when reading the model:

- The `when` of the metadata fold ends in `contains("")`, which every label
  satisfies. So every row that is not a year, genre or actors row is a rating
  row: the last such row, whatever its label, sets the rating text.
- The tag stage tests membership in a fixed priority. The `reversed()` in front
  of it changes nothing, so the order of tags never matters.
- The movie fallback of `loadLinks` makes one playlist request for every player
  script on the iframe page, not just one.

## Model

| member | source | states |
|---|---|---|
| Listing.FilterNot | UakinoProvider/src/main/kotlin/com/lagradost/UakinoProvider.kt:44-45 | `filterNot` keeps exactly the elements the test does not reject, never more than were given |
| Listing.FilterNotAppend | UakinoProvider/src/main/kotlin/com/lagradost/UakinoProvider.kt:44-45 | `filterNot` keeps order: filtering a concatenation concatenates the filtered parts |
| Listing.ListingFilter | UakinoProvider/src/main/kotlin/com/lagradost/UakinoProvider.kt:44-45 | a tile is kept exactly when it was given and its link does not literally contain the denylist string; never more tiles come out than went in |
| Listing.ListingFilterAppend | UakinoProvider/src/main/kotlin/com/lagradost/UakinoProvider.kt:44-45 | the filter keeps page order: filtering a concatenation concatenates the filtered parts |
| Listing.BracketFreeLinkKept | UakinoProvider/src/main/kotlin/com/lagradost/UakinoProvider.kt:37-45 | a link without `(` is never dropped, so the denylist is not read as a pattern |
| Listing.NewsLinkKept | UakinoProvider/src/main/kotlin/com/lagradost/UakinoProvider.kt:37-45 | a link that only has `/news/` in it is kept; one that holds the whole denylist string is dropped |
| Listing.FirstHref | UakinoProvider/src/main/kotlin/com/lagradost/UakinoProvider.kt:45 | the link of the first link element that has one, whatever elements without a link precede it, and empty when no element has one |
| Listing.ToSearchResponse | UakinoProvider/src/main/kotlin/com/lagradost/UakinoProvider.kt:52-60 | a tile becomes a `Movie` named by its trimmed title, linked to its first link element, with its image; a missing title or link element reads "null" |
| Listing.MainPage | UakinoProvider/src/main/kotlin/com/lagradost/UakinoProvider.kt:43-49 | the home page lists exactly the kept tiles, mapped one to one in order |
| Listing.MainPageNoDeniedUrl | UakinoProvider/src/main/kotlin/com/lagradost/UakinoProvider.kt:44-48 | no listed item's URL contains the denylist string |
| Listing.MainPageUrl | UakinoProvider/src/main/kotlin/com/lagradost/UakinoProvider.kt:43 | the fetched URL starts with the section prefix and has the page number after it |
| Listing.MainPageUrlPage | UakinoProvider/src/main/kotlin/com/lagradost/UakinoProvider.kt:43 | the page number parses back out of the section URL |
| Listing.SectionUrlsOnSite | UakinoProvider/src/main/kotlin/com/lagradost/UakinoProvider.kt:28-35 | every one of the six home-page sections, at every page number, is fetched from the site's own host |
| Listing.SearchStory | UakinoProvider/src/main/kotlin/com/lagradost/UakinoProvider.kt:68 | each space of the query becomes `+` and every other character stays in place, so the `story` field has the query's length and no space |
| Listing.SearchStoryRoundTrip | UakinoProvider/src/main/kotlin/com/lagradost/UakinoProvider.kt:68 | for a query without `+`, turning each `+` of the `story` field back into a space gives the query again |
| Listing.SearchResults | UakinoProvider/src/main/kotlin/com/lagradost/UakinoProvider.kt:71-73 | search maps every result tile, none filtered, in order |
| KotlinNumbers.ParseInt | UakinoProvider/src/main/kotlin/com/lagradost/UakinoProvider.kt:92 | a year value is a number exactly when it is an optional `+` or `-` followed by at least one digit and lies in the `Int` range, and then the number is the signed decimal value of the digits |
| KotlinNumbers.ParseIntExamples | UakinoProvider/src/main/kotlin/com/lagradost/UakinoProvider.kt:92 | `"02021"` and `"+2021"` both read as 2021; a lone `-` and the empty text are not numbers |
| KotlinNumbers.ParseIntRejects | UakinoProvider/src/main/kotlin/com/lagradost/UakinoProvider.kt:92 | a non-digit anywhere but a leading sign makes the year value fail |
| KotlinNumbers.ParseIntToString | UakinoProvider/src/main/kotlin/com/lagradost/UakinoProvider.kt:43 | every `Int` printed in decimal parses back to itself |
| KotlinStrings.ContainsEmpty | UakinoProvider/src/main/kotlin/com/lagradost/UakinoProvider.kt:95 | `contains("")` holds for every text |
| KotlinStrings.SubstringBefore | UakinoProvider/src/main/kotlin/com/lagradost/UakinoProvider.kt:95 | the result is the prefix before the first occurrence of the delimiter, holds no occurrence of it, and is the whole text when the delimiter is missing |
| KotlinStrings.SubstringAfterLast | UakinoProvider/src/main/kotlin/com/lagradost/UakinoProvider.kt:199 | the result is the suffix after the last occurrence of the delimiter, holds no occurrence of it, and is the whole text when the delimiter is missing |
| KotlinStrings.Split | UakinoProvider/src/main/kotlin/com/lagradost/UakinoProvider.kt:93 | splitting gives at least one field, no field holds the separator, and joining the fields with it gives back the text |
| KotlinStrings.SplitLeftmost | UakinoProvider/src/main/kotlin/com/lagradost/UakinoProvider.kt:93-94 | every field but the last ends at the first occurrence of the separator after its start, so the fields are cut left to right even for the self-overlapping `" , "` |
| KotlinStrings.SplitOverlapExample | UakinoProvider/src/main/kotlin/com/lagradost/UakinoProvider.kt:93 | `" , , "` split on `" , "` gives `""` and `", "`, cutting at the first occurrence |
| KotlinStrings.SplitFirst | UakinoProvider/src/main/kotlin/com/lagradost/UakinoProvider.kt:131 | the first field is the text before the first separator |
| KotlinStrings.SplitLast | UakinoProvider/src/main/kotlin/com/lagradost/UakinoProvider.kt:131 | the last field is the text after the last separator |
| KotlinStrings.Trim | UakinoProvider/src/main/kotlin/com/lagradost/UakinoProvider.kt:137 | the result is no longer than the text and neither starts nor ends with whitespace |
| KotlinStrings.TrimSlice | UakinoProvider/src/main/kotlin/com/lagradost/UakinoProvider.kt:137 | the result is a slice of the text with nothing but whitespace cut away before and after it |
| KotlinStrings.TrimIdempotent | UakinoProvider/src/main/kotlin/com/lagradost/UakinoProvider.kt:137 | trimming a trimmed text changes nothing |
| Metadata.KindOfTotal | UakinoProvider/src/main/kotlin/com/lagradost/UakinoProvider.kt:91-95 | every row updates some field; a row is a rating row exactly when its label holds none of the year, genre and actors captions |
| Metadata.KindOfYear | UakinoProvider/src/main/kotlin/com/lagradost/UakinoProvider.kt:92 | a row sets the year exactly when its label holds the year caption |
| Metadata.Apply | UakinoProvider/src/main/kotlin/com/lagradost/UakinoProvider.kt:92-95 | a row fails exactly when it is a year row whose value is not a number, and it leaves every field but its own unchanged |
| Metadata.FoldIsLastRowPerField | UakinoProvider/src/main/kotlin/com/lagradost/UakinoProvider.kt:84-100 | the fold fails exactly when some year row is not a number; otherwise each field is the value of the last row of its kind, tags split on " , " and actors on ", ", or its default |
| Metadata.FoldDefaults | UakinoProvider/src/main/kotlin/com/lagradost/UakinoProvider.kt:84-87 | without year rows the fold succeeds with year 2023, and no rows give the defaults 2023, no tags, no actors, rating "0" |
| Metadata.LastOfKind | UakinoProvider/src/main/kotlin/com/lagradost/UakinoProvider.kt:89-96 | the row found has the kind asked for and is one of the rows; none is found exactly when no row has that kind |
| Metadata.LastOfKindIsLast | UakinoProvider/src/main/kotlin/com/lagradost/UakinoProvider.kt:89-96 | the row found is the last row of its kind: no later row has that kind, so later rows overwrite earlier ones |
| Metadata.Fold | UakinoProvider/src/main/kotlin/com/lagradost/UakinoProvider.kt:89-100 | the metadata fold of `load`, row by row from the defaults; what it yields is stated by `Metadata.FoldIsLastRowPerField` and `Metadata.FoldDefaults` |
| ContentType.Reverse | UakinoProvider/src/main/kotlin/com/lagradost/UakinoProvider.kt:105 | `reversed()` gives the list back to front, element by element, with the same length |
| ContentType.TagType | UakinoProvider/src/main/kotlin/com/lagradost/UakinoProvider.kt:105-114 | the tag stage of `load`, first matching caption wins; what it yields is stated by `ContentType.TagTypePriority` and `ContentType.TagTypeOrderFree` |
| ContentType.TagTypePriority | UakinoProvider/src/main/kotlin/com/lagradost/UakinoProvider.kt:105-113 | each tag result holds exactly when its tag is present and no tag of higher priority is |
| ContentType.TagTypeOrderFree | UakinoProvider/src/main/kotlin/com/lagradost/UakinoProvider.kt:105-113 | tag lists with the same members classify alike |
| ContentType.CartoonTagsGiveCartoon | UakinoProvider/src/main/kotlin/com/lagradost/UakinoProvider.kt:102-109 | the cartoon and cartoon-series tags together give `Cartoon` in either order |
| ContentType.ClassifyItem | UakinoProvider/src/main/kotlin/com/lagradost/UakinoProvider.kt:105-118 | the final type is never `Others`; a known tag decides, and otherwise the type is `TvSeries` exactly when the URL holds a serial section and `Movie` otherwise |
| ContentType.SeriesBranchExactly | UakinoProvider/src/main/kotlin/com/lagradost/UakinoProvider.kt:116-130 | an episode list is fetched exactly when the tag stage gives `Cartoon`, `Anime` or `AsianDrama`, or when the item has none of the five known tags and its URL holds a serial section |
| ContentType.CartoonTagBeatsSeriesUrl | UakinoProvider/src/main/kotlin/com/lagradost/UakinoProvider.kt:109-117 | a cartoon-film tag makes a `Movie` even under a serial-section URL |
| Episodes.ItemId | UakinoProvider/src/main/kotlin/com/lagradost/UakinoProvider.kt:131 | `url.split("/").last().split("-").first()`; what it yields is stated by `Episodes.ItemIdBySubstrings` and `Episodes.ItemIdShape` |
| Episodes.ItemIdBySubstrings | UakinoProvider/src/main/kotlin/com/lagradost/UakinoProvider.kt:131 | the id is the text before the first `-` of what follows the last `/` |
| Episodes.ItemIdShape | UakinoProvider/src/main/kotlin/com/lagradost/UakinoProvider.kt:131 | the id holds neither `/` nor `-`, and is empty for a URL ending in `/` |
| Episodes.ItemIdChars | UakinoProvider/src/main/kotlin/com/lagradost/UakinoProvider.kt:182 | the id holds no character the URL lacks |
| Episodes.ItemIdOfSlug | UakinoProvider/src/main/kotlin/com/lagradost/UakinoProvider.kt:131 | a URL `prefix/num-rest` yields `num` |
| Episodes.ItemIdExample | UakinoProvider/src/main/kotlin/com/lagradost/UakinoProvider.kt:131 | `.../seriesss/12345-some-title.html` yields `12345` |
| Episodes.AjaxUrl | UakinoProvider/src/main/kotlin/com/lagradost/UakinoProvider.kt:136-138 | the playlist URL is never empty, so no episode is dropped |
| Episodes.AjaxUrlCommaFree | UakinoProvider/src/main/kotlin/com/lagradost/UakinoProvider.kt:136-138 | the playlist URL holds a comma only when the id does, so the episode data stays decodable |
| Episodes.DecodeData | UakinoProvider/src/main/kotlin/com/lagradost/UakinoProvider.kt:179 | decoding gives at least one field and no field holds a comma |
| Episodes.EpisodeData | UakinoProvider/src/main/kotlin/com/lagradost/UakinoProvider.kt:140 | the episode data `"$href,$name"`; `Episodes.DecodeEpisodeData` states that `loadLinks` decodes it back into link and name |
| Episodes.DecodeEpisodeData | UakinoProvider/src/main/kotlin/com/lagradost/UakinoProvider.kt:140 | with no comma in link or name, the episode data decodes to exactly the link and the name |
| Episodes.DecodeCommaInName | UakinoProvider/src/main/kotlin/com/lagradost/UakinoProvider.kt:179-181 | a comma in the name gives more than two fields, and the second is only the name's part before the comma |
| Episodes.DecodeMovieData | UakinoProvider/src/main/kotlin/com/lagradost/UakinoProvider.kt:179-181 | a comma-free movie URL decodes to one field, itself |
| Episodes.BuildEpisodes | UakinoProvider/src/main/kotlin/com/lagradost/UakinoProvider.kt:135-146 | the `mapNotNull` over the playlist items; what it yields is stated by `Episodes.BuildEpisodesItems` |
| Episodes.BuildEpisodesItems | UakinoProvider/src/main/kotlin/com/lagradost/UakinoProvider.kt:135-146 | one episode per playlist item, in order, named by its trimmed text, with data the playlist URL of that clock reading and the name |
| Episodes.DistinctByName | UakinoProvider/src/main/kotlin/com/lagradost/UakinoProvider.kt:148 | the result has the same set of names as the input, pairwise distinct names, and only input episodes |
| Episodes.DistinctByNameKeepsFirsts | UakinoProvider/src/main/kotlin/com/lagradost/UakinoProvider.kt:148 | the result is the input at increasing positions, which are exactly the first episodes of each name |
| Episodes.DistinctByNameCount | UakinoProvider/src/main/kotlin/com/lagradost/UakinoProvider.kt:148 | the result has as many episodes as the input has distinct names |
| Streams.EnsureHttps | UakinoProvider/src/main/kotlin/com/lagradost/UakinoProvider.kt:188-192 | the link is unchanged exactly when it holds `https://`, and otherwise gains `https:` in front; the link is always a suffix of the result |
| Streams.EnsureHttpsProtocolRelative | UakinoProvider/src/main/kotlin/com/lagradost/UakinoProvider.kt:240-243 | a protocol-relative link `//host/p` becomes `https://host/p` |
| Streams.EnsureHttpsScheme | UakinoProvider/src/main/kotlin/com/lagradost/UakinoProvider.kt:189-192 | the result holds `https://` exactly when the link did or was protocol-relative |
| Streams.PlaylistSlice | UakinoProvider/src/main/kotlin/com/lagradost/UakinoProvider.kt:199-200 | the sliced URL never holds `",` |
| Streams.PlaylistSliceExact | UakinoProvider/src/main/kotlin/com/lagradost/UakinoProvider.kt:249 | for `P file:" U ", S` with no `",` in `U` and no later `file:"`, the slice is exactly `U` |
| Streams.PlaylistSliceNoMarkers | UakinoProvider/src/main/kotlin/com/lagradost/UakinoProvider.kt:269 | a script without either marker is returned unchanged |
| Streams.PlaylistSliceExample | UakinoProvider/src/main/kotlin/com/lagradost/UakinoProvider.kt:220 | `...file:"http://x/y.m3u8",...` gives `http://x/y.m3u8` |
| Streams.MarkedScripts | UakinoProvider/src/main/kotlin/com/lagradost/UakinoProvider.kt:198 | exactly the given scripts that hold the player marker are kept, never more than were given |
| Streams.MarkedScriptsAppend | UakinoProvider/src/main/kotlin/com/lagradost/UakinoProvider.kt:197-198 | the marker test keeps script order: the marked scripts of a concatenation are those of each part, concatenated |
| Streams.MarkedScriptsAll | UakinoProvider/src/main/kotlin/com/lagradost/UakinoProvider.kt:198 | when every script holds the marker, none is dropped |
| Streams.ScriptStreams | UakinoProvider/src/main/kotlin/com/lagradost/UakinoProvider.kt:196-209 | at most one request per script, each with the given label, the ashdi referer and a URL without `",` |
| Streams.ScriptStreamsOfMarked | UakinoProvider/src/main/kotlin/com/lagradost/UakinoProvider.kt:196-209 | the requests are the slices of the marked scripts, one each, in script order |
| Provider.PlaylistTexts | UakinoProvider/src/main/kotlin/com/lagradost/UakinoProvider.kt:134-135 | a failed decode yields no playlist items; otherwise the texts of all items, in order |
| Provider.Load | UakinoProvider/src/main/kotlin/com/lagradost/UakinoProvider.kt:77-170 | `load` over the fetched page and playlist; what it yields is stated by `Provider.LoadShape` (type and branch), `Provider.LoadDetails` (name and metadata), and `Provider.LoadEpisodes` with `Provider.SeriesEpisodes` (episodes) |
| Provider.LoadShape | UakinoProvider/src/main/kotlin/com/lagradost/UakinoProvider.kt:77-170 | `load` fails exactly when a year row is not a number; otherwise the type is never `Others`, the episode list is built exactly for a series type, and a movie's data is its own URL |
| Provider.LoadDetails | UakinoProvider/src/main/kotlin/com/lagradost/UakinoProvider.kt:81-167 | a successful `load` names the item by its trimmed title and carries, for series and movies alike, the year, tags, actors and rating text of the last row of each kind (or the defaults), the poster, trimmed plot and trailer sources, and the related tiles as search results |
| Provider.SeriesEpisodes | UakinoProvider/src/main/kotlin/com/lagradost/UakinoProvider.kt:130-148 | the episode list has distinct names, exactly the trimmed playlist texts as its names, only episodes built from some playlist item, and each episode's data decodes to a playlist URL of the item and its name |
| Provider.LoadEpisodes | UakinoProvider/src/main/kotlin/com/lagradost/UakinoProvider.kt:131-148 | the episodes `load` returns are the de-duplicated list built from the playlist fetched at the URL's own id with clock reading 0; their names are distinct and, for a comma-free URL, their data point back at that playlist |
| Provider.SeriesStreams | UakinoProvider/src/main/kotlin/com/lagradost/UakinoProvider.kt:185-210 | every request of a serial carries the ashdi referer and a URL without `",` |
| Provider.SeriesStreamsOne | UakinoProvider/src/main/kotlin/com/lagradost/UakinoProvider.kt:186-207 | one playlist item yields exactly the requests of the marked scripts of the page at its link with `https:` ensured, labelled with its voice |
| Provider.SeriesStreamsAppend | UakinoProvider/src/main/kotlin/com/lagradost/UakinoProvider.kt:186-207 | the requests of a list of playlist items are those of each item in turn, in list order |
| Provider.SeriesStreamsVoices | UakinoProvider/src/main/kotlin/com/lagradost/UakinoProvider.kt:193-206 | every request of a serial is labelled with the voice of one of its playlist items |
| Provider.MovieStreams | UakinoProvider/src/main/kotlin/com/lagradost/UakinoProvider.kt:212-231 | every film request carries the ashdi referer, a URL without `",` and the page title; no iframe means no request |
| Provider.MovieStreamsExact | UakinoProvider/src/main/kotlin/com/lagradost/UakinoProvider.kt:214-229 | the film makes exactly one request per player-marked script of the iframe page, in script order, each the slice of that script labelled with the page title |
| Provider.ItemsMatching | UakinoProvider/src/main/kotlin/com/lagradost/UakinoProvider.kt:238 | exactly the items whose text the selector's test accepts for the episode name are kept, never more than were given |
| Provider.ItemsMatchingAppend | UakinoProvider/src/main/kotlin/com/lagradost/UakinoProvider.kt:238 | the episode selection keeps playlist order: the items kept from a concatenation are those kept from each part, concatenated |
| Provider.LoadLinks | UakinoProvider/src/main/kotlin/com/lagradost/UakinoProvider.kt:173-284 | `loadLinks` over the fetched playlist and pages; what it yields on each path is stated by `Provider.LoadLinksSerialPage`, `Provider.LoadLinksMovieFallback` and `Provider.LoadLinksOfEpisode`, and for every request by `Provider.LoadLinksRequests` |
| Provider.LoadLinksRequests | UakinoProvider/src/main/kotlin/com/lagradost/UakinoProvider.kt:173-284 | every request has the ashdi referer and a URL without `",`, labelled by a delivered item's voice or by the page title |
| Provider.LoadLinksSerialPage | UakinoProvider/src/main/kotlin/com/lagradost/UakinoProvider.kt:181-211 | a page URL whose own playlist reports success streams every item of that playlist, in order, with no selection by name |
| Provider.LoadLinksMovieFallback | UakinoProvider/src/main/kotlin/com/lagradost/UakinoProvider.kt:181-231 | a page URL whose playlist does not report success yields exactly the film requests: one per player-marked script of the iframe page, in order, each the slice of that script labelled with the page title, and none without an iframe |
| Provider.LoadLinksOfEpisode | UakinoProvider/src/main/kotlin/com/lagradost/UakinoProvider.kt:235-259 | episode data fetches exactly the playlist URL it was built from and keeps the items the selector's text test accepts for its full, untruncated name; without a successful playlist it falls back on the film requests of the whole data |

## Left out

- HTTP fetching (`app.get`, `app.post`, `parsedSafe`, referer headers) is network I/O. The `Web` value stands for what each URL would return. A fetch that throws is not modelled. A failed `parsedSafe` is `None`.
- Jsoup parsing and its CSS selectors are a foreign library. Pages come in as the strings and records the selectors pick out: `Tile`, `Row`, `ItemPage`, `PlaylistItem`.
- Provider.ItemsMatching: the text test of `li:contains(name)` is a parameter, because Jsoup's case-insensitive, whitespace-normalising matching is library code.
- Host helpers whose code is not part of this model are left as their arguments: `fixUrl`, `fixUrlNull`, `toRatingInt` (the rating is kept as the text handed to it), `addActors`, `addTrailer`, the response builders, and `M3u8Helper.generateM3u8` (a request records its three arguments).
- `Date().time` is a clock parameter: reading 0 goes into the fetched playlist URL, and reading k+1 goes into episode k.
- The `callback` sink, `suspend` execution, `isCasting`, `subtitleCallback` and the constant `true` result of `loadLinks` are left out. The model returns the requests in callback order.
- KotlinNumbers.ParseInt: accepts only ASCII digits, while the JVM's `toInt` also accepts other Unicode decimal digits.
- KotlinStrings.Trim: uses the JVM whitespace set as a fixed list of characters. No Unicode database is modelled.
- The `Responses.response` field is reduced to its playlist items, and the `Regex` of line 117 to a literal-substring test over its three alternatives.
- `CikavaIdeyaProvider/src/test/kotlin/com/lagradost/CikavaIdeyaProviderTest.kt` only calls the host's test runner and holds no logic, so it is not part of this model.
- The provider's static fields (`name`, `lang`, `supportedTypes`, `hasMainPage`, `hasDownloadSupport`) carry no logic and are not modelled.

=== FILE: content_type.dfy ===
/** How an item page is classified (`load`, UakinoProvider.kt lines 102-118):
    a fixed-priority test for known genre tags, then, when no tag decides, a
    URL-path test for serial sections. The type chooses between the series
    branch (episode list) and the movie branch (line 130). */
module ContentType {
  import opened KotlinStrings

  /** The host's content types that this provider can produce. */
  datatype TvType = Movie | AnimeMovie | TvSeries | Cartoon | Anime | AsianDrama | Others

  const FeatureAnimeTag: string := "Повнометражне аніме"
  const CartoonSeriesTag: string := "Мультсеріали"
  const CartoonTag: string := "Мультфільми"
  const SeriesAnimeTag: string := "Багатосерійне аніме"
  const DramaTag: string := "Дорами"

  /** The three alternatives of the pattern `(/anime-series)|(/seriesss)|(/cartoonseries)`. */
  const SeriesPaths: seq<string> := ["/anime-series", "/seriesss", "/cartoonseries"]

  /** Kotlin's `reversed()`. */
  function Reverse<T>(s: seq<T>): (r: seq<T>)
    ensures |r| == |s|
    ensures forall i :: 0 <= i < |s| ==> r[i] == s[|s| - 1 - i]
  {
    if |s| == 0 then [] else Reverse(s[1..]) + [s[0]]
  }

  /** Reversal keeps exactly the same members. */
  lemma ReverseMembers<T>(s: seq<T>, x: T)
    ensures x in Reverse(s) <==> x in s
  {
    var r := Reverse(s);
    if x in s {
      var i :| 0 <= i < |s| && s[i] == x;
      assert r[|s| - 1 - i] == x;
    }
    if x in r {
      var i :| 0 <= i < |r| && r[i] == x;
      assert s[|s| - 1 - i] == x;
    }
  }

  /** The tag stage: `when` over `tags.reversed().contains(...)`, first match wins. */
  function TagType(tags: seq<string>): TvType {
    var rev := Reverse(tags);
    if FeatureAnimeTag in rev then AnimeMovie
    else if CartoonSeriesTag in rev then Cartoon
    else if CartoonTag in rev then Movie
    else if SeriesAnimeTag in rev then Anime
    else if DramaTag in rev then AsianDrama
    else Others
  }

  /** The tag stage decides by membership alone, in a fixed priority: the
      reversal in front of it changes nothing. */
  lemma TagTypePriority(tags: seq<string>)
    ensures TagType(tags) == AnimeMovie <==> FeatureAnimeTag in tags
    ensures TagType(tags) == Cartoon <==> FeatureAnimeTag !in tags && CartoonSeriesTag in tags
    ensures TagType(tags) == Movie <==>
              FeatureAnimeTag !in tags && CartoonSeriesTag !in tags && CartoonTag in tags
    ensures TagType(tags) == Anime <==>
              FeatureAnimeTag !in tags && CartoonSeriesTag !in tags && CartoonTag !in tags
              && SeriesAnimeTag in tags
    ensures TagType(tags) == AsianDrama <==>
              FeatureAnimeTag !in tags && CartoonSeriesTag !in tags && CartoonTag !in tags
              && SeriesAnimeTag !in tags && DramaTag in tags
    ensures TagType(tags) == Others <==>
              FeatureAnimeTag !in tags && CartoonSeriesTag !in tags && CartoonTag !in tags
              && SeriesAnimeTag !in tags && DramaTag !in tags
    ensures TagType(tags) != TvSeries
  {
    ReverseMembers(tags, FeatureAnimeTag);
    ReverseMembers(tags, CartoonSeriesTag);
    ReverseMembers(tags, CartoonTag);
    ReverseMembers(tags, SeriesAnimeTag);
    ReverseMembers(tags, DramaTag);
  }

  /** Two tag lists with the same members classify alike, whatever their order. */
  lemma TagTypeOrderFree(a: seq<string>, b: seq<string>)
    requires forall x :: x in a <==> x in b
    ensures TagType(a) == TagType(b)
  {
    TagTypePriority(a);
    TagTypePriority(b);
  }

  /** The site's overlapping cartoon tags: the series tag wins in either order. */
  lemma CartoonTagsGiveCartoon()
    ensures TagType([CartoonTag, CartoonSeriesTag]) == Cartoon
    ensures TagType([CartoonSeriesTag, CartoonTag]) == Cartoon
  {
    TagTypePriority([CartoonTag, CartoonSeriesTag]);
    TagTypePriority([CartoonSeriesTag, CartoonTag]);
  }

  /** `url.contains(Regex("(/anime-series)|(/seriesss)|(/cartoonseries)"))`: the
      pattern is a plain alternation of literals, so it is found exactly when one
      of them is a substring. */
  predicate IsSeriesUrl(url: string) {
    exists k | 0 <= k < |SeriesPaths| :: Contains(url, SeriesPaths[k])
  }

  /** The item's final type: the tag stage, and `Others` resolved by the URL. */
  function ClassifyItem(tags: seq<string>, url: string): (t: TvType)
    ensures t != Others
    ensures TagType(tags) != Others ==> t == TagType(tags)
    ensures TagType(tags) == Others ==> (t == TvSeries <==> IsSeriesUrl(url))
    ensures TagType(tags) == Others ==> (t == Movie <==> !IsSeriesUrl(url))
  {
    var t := TagType(tags);
    if t == Others then (if IsSeriesUrl(url) then TvSeries else Movie) else t
  }

  /** `tvType != TvType.Movie && tvType != TvType.AnimeMovie`: the type loads an episode list. */
  predicate IsSeriesType(t: TvType) {
    t != Movie && t != AnimeMovie
  }

  /** An item takes the series branch exactly when its tags say cartoon series,
      series anime or drama, or when no known tag is present and its URL lies in
      a serial section. */
  lemma SeriesBranchExactly(tags: seq<string>, url: string)
    ensures IsSeriesType(ClassifyItem(tags, url)) <==>
              (TagType(tags) in {Cartoon, Anime, AsianDrama})
              || (TagType(tags) == Others && IsSeriesUrl(url))
  {
    TagTypePriority(tags);
  }

  /** A serial-section URL does not override a feature-film tag. */
  lemma CartoonTagBeatsSeriesUrl(tags: seq<string>, url: string)
    requires CartoonTag in tags && CartoonSeriesTag !in tags && FeatureAnimeTag !in tags
    ensures ClassifyItem(tags, url) == Movie
  {
    TagTypePriority(tags);
  }
}

=== FILE: episodes.dfy ===
/** Episodes of a serial item (`load`, UakinoProvider.kt lines 130-148, and the
    decoding in `loadLinks`, lines 179-182 and 235): the numeric item id taken
    from the page URL, the playlist ajax URL built from it, the opaque episode
    data `"$href,$name"` and its decoding by `split(",")`, and the
    de-duplication of episodes by name. */
module Episodes {
  import opened Wrappers
  import opened KotlinStrings
  import opened KotlinNumbers
  import opened Listing

  /** `url.split("/").last().split("-").first()`: the part before the first `-`
      of the last path segment. */
  function ItemId(url: string): string {
    Split(LastField(url, "/"), "-")[0]
  }

  /** The id is the text before the first `-` in what follows the last `/`. */
  lemma ItemIdBySubstrings(url: string)
    ensures ItemId(url) == SubstringBefore(SubstringAfterLast(url, "/"), "-")
  {
    SplitLast(url, "/");
    SplitFirst(LastField(url, "/"), "-");
    assert ItemId(url) == Split(LastField(url, "/"), "-")[0];
  }

  /** The id holds neither `/` nor `-`, and it is empty for a URL ending in `/`. */
  lemma ItemIdShape(url: string)
    ensures '/' !in ItemId(url) && '-' !in ItemId(url)
    ensures |url| > 0 && url[|url| - 1] == '/' ==> ItemId(url) == ""
  {
    ItemIdBySubstrings(url);
    var last := SubstringAfterLast(url, "/");
    var id := SubstringBefore(last, "-");
    ContainsChar(last, "/");
    ContainsChar(id, "-");
    assert id == last[..|id|];
    assert forall i :: 0 <= i < |id| ==> id[i] == last[i];
    if |url| > 0 && url[|url| - 1] == '/' {
      AfterLastOfTrailing(url, "/");
    }
  }

  /** The id is cut out of the URL, so it holds no character the URL lacks. */
  lemma ItemIdChars(url: string)
    ensures forall c :: c in ItemId(url) ==> c in url
  {
    ItemIdBySubstrings(url);
    var last := SubstringAfterLast(url, "/");
    PrefixOfSuffixChars(url, last, SubstringBefore(last, "-"));
  }

  /** A prefix of a suffix of a text holds only characters of the text. */
  lemma PrefixOfSuffixChars(s: string, suffix: string, prefix: string)
    requires |suffix| <= |s| && suffix == s[|s| - |suffix|..] && prefix <= suffix
    ensures forall c :: c in prefix ==> c in s
  {
    forall c | c in prefix
      ensures c in s
    {
      var i :| 0 <= i < |prefix| && prefix[i] == c;
      assert s[|s| - |suffix| + i] == suffix[i] == c;
    }
  }

  /** A slug URL `prefix/num-rest` yields `num`. */
  lemma ItemIdOfSlug(prefix: string, num: string, rest: string)
    requires '/' !in num && '-' !in num && '/' !in rest
    ensures ItemId(prefix + "/" + num + "-" + rest) == num
  {
    var slug := num + "-" + rest;
    assert prefix + "/" + num + "-" + rest == prefix + "/" + slug;
    ItemIdBySubstrings(prefix + "/" + slug);
    AfterLastOfChar(prefix, "/", slug);
    BeforeFirstChar(num, "-", rest);
  }

  lemma ItemIdExample()
    ensures ItemId("https://uakino.club/seriesss/12345-some-title.html") == "12345"
  {
    assert "https://uakino.club/seriesss/12345-some-title.html"
        == "https://uakino.club/seriesss" + "/" + "12345" + "-" + "some-title.html";
    ItemIdOfSlug("https://uakino.club/seriesss", "12345", "some-title.html");
  }

  /** The playlist endpoint of an item at a given clock reading (`Date().time`). */
  function AjaxUrl(id: string, time: nat): (url: string)
    ensures |url| > 0
  {
    MainUrl + "/engine/ajax/playlists.php?news_id=" + id + "&xfield=playlist&time=" + NatToString(time)
  }

  /** The endpoint adds no comma to the id: the host, path, query names and the
      decimal clock reading hold none. */
  lemma AjaxUrlCommaFree(id: string, time: nat)
    requires ',' !in id
    ensures ',' !in AjaxUrl(id, time)
  {
    var pre := MainUrl + "/engine/ajax/playlists.php?news_id=";
    var mid := "&xfield=playlist&time=";
    var stamp := NatToString(time);
    assert ',' !in pre;
    assert ',' !in mid;
    assert forall i :: 0 <= i < |stamp| ==> stamp[i] != ',';
    assert AjaxUrl(id, time) == pre + id + mid + stamp;
  }

  /** An episode: its opaque data string and its display name. */
  datatype Episode = Episode(data: string, name: string)

  /** The opaque episode data `"$href,$name"`. */
  function EpisodeData(href: string, name: string): string {
    href + "," + name
  }

  /** `data.split(",")` in `loadLinks`. */
  function DecodeData(data: string): (fields: seq<string>)
    ensures |fields| >= 1
    ensures forall k :: 0 <= k < |fields| ==> ',' !in fields[k]
  {
    var fields := Split(data, ",");
    forall k | 0 <= k < |fields|
      ensures ',' !in fields[k]
    {
      ContainsChar(fields[k], ",");
    }
    fields
  }

  /** Round trip: with no comma in either part, decoding gives back exactly
      `[href, name]`, so `loadLinks` takes its two-field path. */
  lemma DecodeEpisodeData(href: string, name: string)
    requires ',' !in href && ',' !in name
    ensures DecodeData(EpisodeData(href, name)) == [href, name]
  {
    SplitAtChar(href, ",", name);
    ContainsChar(name, ",");
    SplitSingleton(name, ",");
  }

  /** A comma in the name cuts it: the second field is only the part before it. */
  lemma DecodeCommaInName(href: string, name: string)
    requires ',' !in href && ',' in name
    ensures |DecodeData(EpisodeData(href, name))| > 2
    ensures DecodeData(EpisodeData(href, name))[1] == SubstringBefore(name, ",")
  {
    SplitAtChar(href, ",", name);
    ContainsChar(name, ",");
    SplitSingleton(name, ",");
    SplitFirst(name, ",");
  }

  /** A movie's data is its page URL; without a comma it decodes to one field,
      which sends `loadLinks` down its direct-URL path. */
  lemma DecodeMovieData(url: string)
    requires ',' !in url
    ensures DecodeData(url) == [url]
  {
    ContainsChar(url, ",");
    SplitSingleton(url, ",");
  }

  /** One `li` of the playlist: `Episode("$href,$name", name)` with the trimmed
      text as name, kept only if the href is not empty. */
  function EpisodeOf(id: string, text: string, time: nat): Option<Episode> {
    var href := AjaxUrl(id, time);
    var name := Trim(text);
    if |href| > 0 then Some(Episode(EpisodeData(href, name), name)) else None
  }

  /** The `mapNotNull` over the playlist items; item `k` sees clock reading `clock(k + 1)`
      (reading 0 is the one in the fetched URL). */
  function BuildEpisodes(id: string, texts: seq<string>, clock: nat -> nat): seq<Episode>
    decreases |texts|
  {
    if |texts| == 0 then []
    else
      var prev := BuildEpisodes(id, texts[..|texts| - 1], clock);
      match EpisodeOf(id, texts[|texts| - 1], clock(|texts|))
      case Some(e) => prev + [e]
      case None => prev
  }

  /** No playlist item is dropped: episode `k` is named by the trimmed text of
      item `k` and carries the playlist URL of clock reading `k + 1` and that name. */
  lemma {:induction false} BuildEpisodesItems(id: string, texts: seq<string>, clock: nat -> nat)
    decreases |texts|
    ensures |BuildEpisodes(id, texts, clock)| == |texts|
    ensures forall k :: 0 <= k < |texts| ==> BuildEpisodes(id, texts, clock)[k].name == Trim(texts[k])
    ensures forall k :: 0 <= k < |texts| ==>
              BuildEpisodes(id, texts, clock)[k].data == EpisodeData(AjaxUrl(id, clock(k + 1)), Trim(texts[k]))
  {
    if |texts| > 0 {
      var n := |texts| - 1;
      var init := texts[..n];
      BuildEpisodesItems(id, init, clock);
      var name := Trim(texts[n]);
      var e := Episode(EpisodeData(AjaxUrl(id, clock(n + 1)), name), name);
      assert EpisodeOf(id, texts[n], clock(n + 1)) == Some(e);
      var r := BuildEpisodes(id, texts, clock);
      assert r == BuildEpisodes(id, init, clock) + [e];
      forall k | 0 <= k <= n
        ensures r[k].name == Trim(texts[k])
        ensures r[k].data == EpisodeData(AjaxUrl(id, clock(k + 1)), Trim(texts[k]))
      {
        if k < n {
          assert texts[k] == init[k];
          assert r[k] == BuildEpisodes(id, init, clock)[k];
        } else {
          assert r[k] == e;
        }
      }
    }
  }

  /** The names that occur in an episode list. */
  function Names(eps: seq<Episode>): set<string> {
    set e | e in eps :: e.name
  }

  /** No two episodes share a name. */
  predicate DistinctNames(eps: seq<Episode>) {
    forall k, l :: 0 <= k < l < |eps| ==> eps[k].name != eps[l].name
  }

  /** `distinctBy { it.name }`: walk the list in order, keep an episode when its
      name has not been seen before. */
  function DistinctByName(eps: seq<Episode>): (r: seq<Episode>)
    decreases |eps|
    ensures Names(r) == Names(eps)
    ensures DistinctNames(r)
    ensures forall e :: e in r ==> e in eps
  {
    if |eps| == 0 then []
    else
      var init := eps[..|eps| - 1];
      var e := eps[|eps| - 1];
      var prev := DistinctByName(init);
      assert eps == init + [e];
      NamesSnoc(init, e);
      if e.name in Names(init) then prev
      else
        NamesSnoc(prev, e);
        NamesHold(prev);
        prev + [e]
  }

  /** Appending one episode adds its name. */
  lemma NamesSnoc(eps: seq<Episode>, e: Episode)
    ensures Names(eps + [e]) == Names(eps) + {e.name}
  {
    assert forall x :: x in eps + [e] <==> x in eps || x == e;
  }

  /** Every episode's name is among the names. */
  lemma NamesHold(eps: seq<Episode>)
    ensures forall k :: 0 <= k < |eps| ==> eps[k].name in Names(eps)
  {
    assert forall k :: 0 <= k < |eps| ==> eps[k] in eps;
  }

  /** No earlier episode has the name of episode `i`. */
  predicate IsFirstOfName(eps: seq<Episode>, i: int) {
    0 <= i < |eps| && forall j :: 0 <= j < i ==> eps[j].name != eps[i].name
  }

  /** `r` is `eps` at the increasing indices `idx`, which are exactly the
      first occurrences of each name. */
  ghost predicate KeepsFirstOccurrences(eps: seq<Episode>, r: seq<Episode>, idx: seq<int>) {
    && |idx| == |r|
    && (forall k :: 0 <= k < |idx| ==> IsFirstOfName(eps, idx[k]) && r[k] == eps[idx[k]])
    && (forall k, l :: 0 <= k < l < |idx| ==> idx[k] < idx[l])
    && (forall i :: IsFirstOfName(eps, i) ==> i in idx)
  }

  /** Being the first of its name only depends on what comes before. */
  lemma FirstOfNameInPrefix(eps: seq<Episode>, n: nat, i: int)
    requires n <= |eps| && 0 <= i < n
    ensures IsFirstOfName(eps, i) <==> IsFirstOfName(eps[..n], i)
  {
    assert forall j :: 0 <= j <= i ==> eps[..n][j] == eps[j];
  }

  /** A last episode whose name was seen before is dropped, and it is not a first occurrence. */
  lemma KeepsFirstsSkip(eps: seq<Episode>, prev: seq<Episode>, idx: seq<int>)
    requires |eps| > 0 && eps[|eps| - 1].name in Names(eps[..|eps| - 1])
    requires KeepsFirstOccurrences(eps[..|eps| - 1], prev, idx)
    ensures KeepsFirstOccurrences(eps, prev, idx)
  {
    var n := |eps| - 1;
    var init := eps[..n];
    forall i | 0 <= i < n
      ensures IsFirstOfName(eps, i) <==> IsFirstOfName(init, i)
    {
      FirstOfNameInPrefix(eps, n, i);
    }
    var x :| x in init && x.name == eps[n].name;
    var j :| 0 <= j < n && init[j] == x;
    assert eps[j].name == eps[n].name;
    assert !IsFirstOfName(eps, n);
    forall k | 0 <= k < |idx|
      ensures IsFirstOfName(eps, idx[k]) && prev[k] == eps[idx[k]]
    {
      assert init[idx[k]] == eps[idx[k]];
    }
  }

  /** A last episode with a new name is kept, and it is a first occurrence. */
  lemma KeepsFirstsAppend(eps: seq<Episode>, prev: seq<Episode>, idx: seq<int>)
    requires |eps| > 0 && eps[|eps| - 1].name !in Names(eps[..|eps| - 1])
    requires KeepsFirstOccurrences(eps[..|eps| - 1], prev, idx)
    ensures KeepsFirstOccurrences(eps, prev + [eps[|eps| - 1]], idx + [|eps| - 1])
  {
    var n := |eps| - 1;
    var init := eps[..n];
    forall i | 0 <= i < n
      ensures IsFirstOfName(eps, i) <==> IsFirstOfName(init, i)
    {
      FirstOfNameInPrefix(eps, n, i);
    }
    forall j | 0 <= j < n
      ensures eps[j].name != eps[n].name
    {
      assert init[j] in init;
    }
    assert IsFirstOfName(eps, n);
    forall k | 0 <= k < |idx|
      ensures IsFirstOfName(eps, idx[k]) && prev[k] == eps[idx[k]]
    {
      assert init[idx[k]] == eps[idx[k]];
    }
  }

  /** The de-duplicated list is the subsequence of first occurrences, in input order. */
  lemma {:induction false} DistinctByNameKeepsFirsts(eps: seq<Episode>) returns (idx: seq<int>)
    decreases |eps|
    ensures KeepsFirstOccurrences(eps, DistinctByName(eps), idx)
  {
    if |eps| == 0 {
      idx := [];
    } else {
      var n := |eps| - 1;
      var idx0 := DistinctByNameKeepsFirsts(eps[..n]);
      if eps[n].name in Names(eps[..n]) {
        KeepsFirstsSkip(eps, DistinctByName(eps[..n]), idx0);
        idx := idx0;
      } else {
        KeepsFirstsAppend(eps, DistinctByName(eps[..n]), idx0);
        idx := idx0 + [n];
      }
    }
  }

  /** Distinct names in a list are as many as the list is long. */
  lemma {:induction false} DistinctNamesCount(eps: seq<Episode>)
    decreases |eps|
    requires DistinctNames(eps)
    ensures |Names(eps)| == |eps|
  {
    if |eps| > 0 {
      var init := eps[..|eps| - 1];
      var e := eps[|eps| - 1];
      assert eps == init + [e];
      assert Names(eps) == Names(init) + {e.name};
      DistinctNamesCount(init);
    }
  }

  /** N episodes with M distinct names de-duplicate to exactly M episodes. */
  lemma DistinctByNameCount(eps: seq<Episode>)
    ensures |DistinctByName(eps)| == |Names(eps)|
  {
    DistinctNamesCount(DistinctByName(eps));
  }
}

=== FILE: kotlin_numbers.dfy ===
/** Kotlin's decimal conversions between `Int`/`Long` and `String`:
    `toString()` of a number, and `String.toInt()`, which fails (throws
    `NumberFormatException`) exactly where `toIntOrNull()` returns null. */
module KotlinNumbers {
  import opened Wrappers

  /** The range of Kotlin's 32-bit `Int`. */
  const IntMin: int := -0x8000_0000
  const IntMax: int := 0x7FFF_FFFF

  predicate IsDigit(c: char) {
    '0' <= c <= '9'
  }

  predicate AllDigits(s: string) {
    forall i :: 0 <= i < |s| ==> IsDigit(s[i])
  }

  function DigitChar(n: nat): (c: char)
    requires n < 10
    ensures IsDigit(c) && c as int - '0' as int == n
  {
    (n + '0' as int) as char
  }

  /** The number a string of decimal digits denotes (most significant first). */
  function DecimalValue(s: string): nat
    requires AllDigits(s)
    decreases |s|
  {
    if |s| == 0 then 0
    else 10 * DecimalValue(s[..|s| - 1]) + (s[|s| - 1] as int - '0' as int)
  }

  /** The decimal text of a non-negative number: digits only, no leading zero,
      and it denotes the number back. */
  function NatToString(n: nat): (r: string)
    decreases n
    ensures |r| > 0 && AllDigits(r)
    ensures |r| > 1 ==> r[0] != '0'
    ensures DecimalValue(r) == n
  {
    if n < 10 then [DigitChar(n)]
    else
      var p := NatToString(n / 10);
      var r := p + [DigitChar(n % 10)];
      assert r[..|r| - 1] == p;
      r
  }

  /** Kotlin's `Int.toString()` / `Long.toString()`: a minus sign before the
      magnitude of a negative number. */
  function IntToString(n: int): (r: string)
    ensures |r| > 0
    ensures n >= 0 <==> IsDigit(r[0])
    ensures n < 0 ==> r[0] == '-' && r[1..] == NatToString(-n)
  {
    if n < 0 then "-" + NatToString(-n) else NatToString(n)
  }

  /** The signed value of a digit string if it is one and fits in an `Int`. */
  function SignedInRange(digits: string, negative: bool): (r: Option<int>)
    ensures r.Some? <==> AllDigits(digits) && IntMin <= (if negative then -(DecimalValue(digits) as int) else DecimalValue(digits)) <= IntMax
    ensures r.Some? ==> IntMin <= r.value <= IntMax
    ensures r.Some? ==> r.value == (if negative then -(DecimalValue(digits) as int) else DecimalValue(digits))
  {
    if !AllDigits(digits) then None
    else
      var v: int := if negative then -(DecimalValue(digits) as int) else DecimalValue(digits);
      if IntMin <= v <= IntMax then Some(v) else None
  }

  /** The shape of a decimal `Int` literal: an optional `-` or `+`, then at least one digit. */
  predicate IntShaped(s: string) {
    |s| > 0 && if s[0] == '-' || s[0] == '+' then |s| > 1 && AllDigits(s[1..]) else AllDigits(s)
  }

  /** The number an `IntShaped` text denotes, before any range check. */
  function ShapedValue(s: string): int
    requires IntShaped(s)
  {
    if s[0] == '-' then -(DecimalValue(s[1..]) as int)
    else if s[0] == '+' then DecimalValue(s[1..])
    else DecimalValue(s)
  }

  /** Kotlin's `String.toIntOrNull()` in radix 10: an optional leading `-` or `+`,
      then at least one digit, and a value inside the `Int` range; anything else
      is absent (`toInt()` throws there). */
  function ParseInt(s: string): (r: Option<int>)
    ensures r.Some? <==> IntShaped(s) && IntMin <= ShapedValue(s) <= IntMax
    ensures r.Some? ==> r.value == ShapedValue(s)
    ensures r.Some? ==> IntMin <= r.value <= IntMax
    ensures r.Some? ==> |s| > 0 && (IsDigit(s[0]) || (|s| > 1 && (s[0] == '-' || s[0] == '+')))
    ensures r.Some? ==> forall i :: 0 < i < |s| ==> IsDigit(s[i])
  {
    if |s| == 0 then None
    else if s[0] < '0' then
      if |s| == 1 then None
      else if s[0] == '-' then SignedInRange(s[1..], true)
      else if s[0] == '+' then SignedInRange(s[1..], false)
      else None
    else
      SignedInRange(s, false)
  }

  /** Round trip: every `Int` printed in decimal parses back to itself. */
  lemma ParseIntToString(n: int)
    requires IntMin <= n <= IntMax
    ensures ParseInt(IntToString(n)) == Some(n)
  {
    var r := IntToString(n);
    if n < 0 {
      assert r[0] == '-' && r[0] < '0';
      assert r[1..] == NatToString(-n);
    }
  }

  /** Text with a character that is neither a digit nor a leading sign is not a number. */
  lemma ParseIntRejects(s: string, i: nat)
    requires i < |s| && !IsDigit(s[i])
    requires i > 0 || (s[0] != '-' && s[0] != '+') || |s| == 1
    ensures ParseInt(s) == None
  {
  }

  /** Leading zeros and a `+` sign are accepted; a bare sign is not. */
  lemma ParseIntExamples()
    ensures ParseInt("02021") == Some(2021)
    ensures ParseInt("+2021") == Some(2021)
    ensures ParseInt("-") == None && ParseInt("") == None
  {
    DecimalSamples();
    assert "+2021"[1..] == "2021";
  }

  lemma DecimalSamples()
    ensures DecimalValue("2021") == 2021 && DecimalValue("02021") == 2021
  {
    DecimalSample();
    assert DecimalValue("0") == 0 by { assert "0"[..0] == ""; }
    assert DecimalValue("02") == 2 by { assert "02"[..1] == "0"; }
    assert DecimalValue("020") == 20 by { assert "020"[..2] == "02"; }
    assert DecimalValue("0202") == 202 by { assert "0202"[..3] == "020"; }
    assert DecimalValue("02021") == 2021 by { assert "02021"[..4] == "0202"; }
  }

  lemma DecimalSample()
    ensures DecimalValue("2021") == 2021
  {
    assert DecimalValue("2") == 2 by { assert "2"[..0] == ""; }
    assert DecimalValue("20") == 20 by { assert "20"[..1] == "2"; }
    assert DecimalValue("202") == 202 by { assert "202"[..2] == "20"; }
    assert "2021"[..3] == "202";
  }
}

=== FILE: kotlin_strings.dfy ===
/** The subset of Kotlin's `String` library that the scraper's decisions rest on,
    with Kotlin's exact semantics: `contains` is a literal substring test,
    `substringBefore`/`substringAfterLast` return the input unchanged when the
    delimiter is missing, `split` keeps empty fields, `trim` strips
    `Char.isWhitespace` characters at both ends. */
module KotlinStrings {
  import opened Wrappers

  /** `d` occurs in `s` starting at index `i`. */
  predicate OccursAt(s: string, d: string, i: int) {
    0 <= i && i + |d| <= |s| && s[i..i + |d|] == d
  }

  /** Kotlin's `s.contains(d)` for a `String` argument: a literal substring test. */
  predicate Contains(s: string, d: string) {
    exists i | 0 <= i <= |s| - |d| :: OccursAt(s, d, i)
  }

  lemma OccursAtContains(s: string, d: string, i: int)
    requires OccursAt(s, d, i)
    ensures Contains(s, d)
  {
  }

  /** Every string contains the empty string, so `contains("")` is always true. */
  lemma ContainsEmpty(s: string)
    ensures Contains(s, "")
  {
    assert OccursAt(s, "", 0);
  }

  /** A one-character needle is found exactly when its character is in the string. */
  lemma ContainsChar(s: string, d: string)
    requires |d| == 1
    ensures Contains(s, d) <==> d[0] in s
  {
    if d[0] in s {
      var i :| 0 <= i < |s| && s[i] == d[0];
      assert s[i..i + 1] == d;
      assert OccursAt(s, d, i);
    }
    if Contains(s, d) {
      var i :| 0 <= i <= |s| - 1 && OccursAt(s, d, i);
      assert s[i] == s[i..i + 1][0];
    }
  }

  /** An occurrence inside a part of a string is an occurrence in the whole string. */
  lemma OccursAtShift(a: string, b: string, d: string, i: int)
    requires OccursAt(b, d, i)
    ensures OccursAt(a + b, d, |a| + i)
  {
    assert (a + b)[|a| + i..|a| + i + |d|] == b[i..i + |d|];
  }

  lemma OccursAtPrefix(a: string, b: string, d: string, i: int)
    requires OccursAt(a, d, i)
    ensures OccursAt(a + b, d, i)
  {
    assert (a + b)[i..i + |d|] == a[i..i + |d|];
  }

  /** An occurrence in `s` that lies wholly inside the slice `s[lo..]` is an occurrence there. */
  lemma OccursAtInSuffix(s: string, d: string, lo: nat, j: int)
    requires lo <= |s| && OccursAt(s, d, lo + j) && 0 <= j
    ensures OccursAt(s[lo..], d, j)
  {
    assert s[lo..][j..j + |d|] == s[lo + j..lo + j + |d|];
  }

  /** The first index `>= from` at which `d` occurs (Kotlin's `indexOf(d, from)`). */
  function IndexOfFrom(s: string, d: string, from: nat): (r: Option<nat>)
    decreases |s| - from
    ensures r.Some? ==> from <= r.value && OccursAt(s, d, r.value)
    ensures forall j :: from <= j && (r.None? || j < r.value) ==> !OccursAt(s, d, j)
  {
    if from + |d| > |s| then None
    else if s[from..from + |d|] == d then Some(from)
    else IndexOfFrom(s, d, from + 1)
  }

  /** Kotlin's `s.indexOf(d)`: the first occurrence, absent (-1 in Kotlin) when there is none. */
  function IndexOf(s: string, d: string): (r: Option<nat>)
    ensures r.Some? <==> Contains(s, d)
    ensures r.Some? ==> OccursAt(s, d, r.value)
    ensures r.Some? ==> forall j :: 0 <= j < r.value ==> !OccursAt(s, d, j)
  {
    IndexOfFrom(s, d, 0)
  }

  /** The last index `<= hi` at which `d` occurs. */
  function LastIndexOfAtMost(s: string, d: string, hi: int): (r: Option<nat>)
    decreases if hi < 0 then 0 else hi + 1
    ensures r.Some? ==> r.value <= hi && OccursAt(s, d, r.value)
    ensures forall j :: j <= hi && (r.None? || r.value < j) ==> !OccursAt(s, d, j)
  {
    if hi < 0 then None
    else if OccursAt(s, d, hi) then Some(hi)
    else LastIndexOfAtMost(s, d, hi - 1)
  }

  /** Kotlin's `s.lastIndexOf(d)`: the last occurrence, absent when there is none. */
  function LastIndexOf(s: string, d: string): (r: Option<nat>)
    ensures r.Some? <==> Contains(s, d)
    ensures r.Some? ==> OccursAt(s, d, r.value)
    ensures r.Some? ==> forall j :: r.value < j ==> !OccursAt(s, d, j)
  {
    LastIndexOfAtMost(s, d, |s| - |d|)
  }

  /** Kotlin's `s.substringBefore(d)`: the text before the first `d`, or all of `s`
      when `d` does not occur. */
  function SubstringBefore(s: string, d: string): (r: string)
    ensures r <= s
    ensures !Contains(s, d) ==> r == s
    ensures Contains(s, d) ==> OccursAt(s, d, |r|)
    ensures forall j :: 0 <= j < |r| ==> !OccursAt(s, d, j)
    ensures |d| > 0 ==> !Contains(r, d)
  {
    match IndexOf(s, d)
    case None => s
    case Some(i) =>
      var r := s[..i];
      assert |d| > 0 ==> !Contains(r, d) by {
        if |d| > 0 && Contains(r, d) {
          var j :| 0 <= j <= |r| - |d| && OccursAt(r, d, j);
          assert s == r + s[i..];
          OccursAtPrefix(r, s[i..], d, j);
        }
      }
      r
  }

  /** Kotlin's `s.substringAfterLast(d)`: the text after the last `d`, or all of `s`
      when `d` does not occur. */
  function SubstringAfterLast(s: string, d: string): (r: string)
    ensures |r| <= |s| && r == s[|s| - |r|..]
    ensures !Contains(s, d) ==> r == s
    ensures Contains(s, d) ==> OccursAt(s, d, |s| - |r| - |d|)
    ensures Contains(s, d) ==> forall j :: |s| - |r| - |d| < j ==> !OccursAt(s, d, j)
    ensures |d| > 0 ==> !Contains(r, d)
  {
    match LastIndexOf(s, d)
    case None => s
    case Some(i) =>
      var r := s[i + |d|..];
      assert |d| > 0 ==> !Contains(r, d) by {
        if |d| > 0 && Contains(r, d) {
          var j :| 0 <= j <= |r| - |d| && OccursAt(r, d, j);
          assert s == s[..i + |d|] + r;
          OccursAtShift(s[..i + |d|], r, d, j);
        }
      }
      r
  }

  /** Glue the fields back together with `d` between neighbours (Kotlin's
      `joinToString(d)`); the inverse of `Split`. */
  function Join(fields: seq<string>, d: string): string {
    if |fields| == 0 then ""
    else if |fields| == 1 then fields[0]
    else fields[0] + d + Join(fields[1..], d)
  }

  /** Kotlin's `s.split(d)` for one non-empty delimiter: cut at every occurrence,
      scanning left to right, keeping empty fields (also a trailing one). */
  function Split(s: string, d: string): (r: seq<string>)
    requires |d| > 0
    decreases |s|
    ensures |r| >= 1
    ensures forall k :: 0 <= k < |r| ==> !Contains(r[k], d)
    ensures Join(r, d) == s
  {
    match IndexOf(s, d)
    case None => [s]
    case Some(i) =>
      var head := SubstringBefore(s, d);
      var rest := Split(s[i + |d|..], d);
      assert s == head + d + s[i + |d|..];
      [head] + rest
  }

  /** `field` was cut at the first occurrence of `d` after it: with `d` put back
      behind it, `d` starts nowhere inside `field`. */
  predicate FirstCut(field: string, d: string) {
    forall j :: 0 <= j < |field| ==> !OccursAt(field + d, d, j)
  }

  /** `split` scans left to right: every field but the last ends at the first
      occurrence of the delimiter, even when the delimiter overlaps itself. */
  lemma {:induction false} SplitLeftmost(s: string, d: string)
    requires |d| > 0
    decreases |s|
    ensures forall k :: 0 <= k < |Split(s, d)| - 1 ==> FirstCut(Split(s, d)[k], d)
  {
    var idx := IndexOf(s, d);
    if idx.Some? {
      var i := idx.value;
      var head := SubstringBefore(s, d);
      var tail := s[i + |d|..];
      var g := Split(tail, d);
      SplitLeftmost(tail, d);
      assert Split(s, d) == [head] + g;
      HeadFirstCut(s, d, head);
      forall k | 0 <= k < |g|
        ensures FirstCut(([head] + g)[k], d)
      {
        if k > 0 {
          assert ([head] + g)[k] == g[k - 1];
        }
      }
    }
  }

  /** The self-overlapping tag separator: `" , , ".split(" , ")` cuts at index 0,
      not at index 2, and gives `["", ", "]`. */
  lemma SplitOverlapExample()
    ensures Split(" , , ", " , ") == ["", ", "]
  {
    var s := " , , ";
    var d := " , ";
    assert OccursAt(s, d, 0);
    assert IndexOf(s, d) == Some(0);
    assert s[3..] == ", ";
    assert !OccursAt(", ", d, 0);
    SplitSingleton(", ", d);
  }

  /** The text before the first `d` is a first cut. */
  lemma HeadFirstCut(s: string, d: string, head: string)
    requires Contains(s, d) && head == SubstringBefore(s, d)
    ensures FirstCut(head, d)
  {
    var p := head + d;
    assert s[..|p|] == p;
    assert s == p + s[|p|..];
    forall j | 0 <= j < |head|
      ensures !OccursAt(p, d, j)
    {
      if OccursAt(p, d, j) {
        OccursAtPrefix(p, s[|p|..], d, j);
      }
    }
  }

  /** A string without the delimiter splits into itself alone, and only such a string does. */
  lemma SplitSingleton(s: string, d: string)
    requires |d| > 0
    ensures |Split(s, d)| == 1 <==> !Contains(s, d)
    ensures !Contains(s, d) ==> Split(s, d) == [s]
  {
  }

  /** The first field of a split is the text before the first delimiter. */
  lemma SplitFirst(s: string, d: string)
    requires |d| > 0
    ensures Split(s, d)[0] == SubstringBefore(s, d)
  {
  }

  /** With a one-character delimiter, the first cut falls at the first occurrence of
      that character, so a delimiter-free head comes back as the first field. */
  lemma {:induction false} SplitAtChar(a: string, d: string, b: string)
    requires |d| == 1 && d[0] !in a
    ensures Split(a + d + b, d) == [a] + Split(b, d)
  {
    var s := a + d + b;
    assert OccursAt(s, d, |a|);
    forall j | 0 <= j < |a|
      ensures !OccursAt(s, d, j)
    {
      assert s[j] == a[j];
      assert s[j..j + 1][0] == s[j];
    }
    var i := IndexOf(s, d).value;
    assert i == |a|;
    assert s[i + 1..] == b;
    assert SubstringBefore(s, d) == a;
  }

  /** What follows the last `d` is what follows an occurrence with none after it. */
  lemma AfterLastAt(s: string, d: string, m: int)
    requires |d| > 0 && OccursAt(s, d, m)
    requires forall j :: m < j ==> !OccursAt(s, d, j)
    ensures SubstringAfterLast(s, d) == s[m + |d|..]
  {
    OccursAtContains(s, d, m);
    var u := SubstringAfterLast(s, d);
    assert OccursAt(s, d, |s| - |u| - |d|);
  }

  /** An occurrence in `s` after index `i` lies inside the tail `t == s[i + 1..]`;
      so when the tail has none after `k`, `s` has none after `i + 1 + k`. */
  lemma NoneAfterInTail(s: string, t: string, d: string, i: nat, k: int)
    requires i < |s| && t == s[i + 1..] && -1 <= k
    requires forall j :: k < j ==> !OccursAt(t, d, j)
    ensures forall j :: i + 1 + k < j ==> !OccursAt(s, d, j)
  {
    forall j | i + 1 + k < j
      ensures !OccursAt(s, d, j)
    {
      if OccursAt(s, d, j) {
        OccursAtInSuffix(s, d, i + 1, j - i - 1);
      }
    }
  }

  /** Cutting a string just after one occurrence of the one-character `d` does
      not change what follows its last occurrence. */
  lemma AfterLastCut(s: string, d: string, i: nat)
    requires |d| == 1 && i < |s| && s[i] == d[0]
    ensures SubstringAfterLast(s, d) == SubstringAfterLast(s[i + 1..], d)
  {
    var t := s[i + 1..];
    var v := SubstringAfterLast(t, d);
    assert s[i..i + 1] == d;
    if Contains(t, d) {
      var k := |t| - |v| - 1;
      assert OccursAt(t, d, k);
      assert s == s[..i + 1] + t;
      OccursAtShift(s[..i + 1], t, d, k);
      NoneAfterInTail(s, t, d, i, k);
      AfterLastAt(s, d, i + 1 + k);
      assert s[i + 2 + k..] == t[k + 1..];
    } else {
      assert forall j :: -1 < j ==> !OccursAt(t, d, j);
      NoneAfterInTail(s, t, d, i, -1);
      AfterLastAt(s, d, i);
    }
  }

  /** `s.split(d).last()`. */
  function LastField(s: string, d: string): string
    requires |d| > 0
  {
    var fields := Split(s, d);
    fields[|fields| - 1]
  }

  /** Past the first delimiter the last field is that of the rest. */
  lemma LastFieldStep(s: string, d: string, i: nat)
    requires |d| > 0 && IndexOf(s, d) == Some(i)
    ensures LastField(s, d) == LastField(s[i + |d|..], d)
  {
    var f := Split(s, d);
    var g := Split(s[i + |d|..], d);
    assert LastField(s, d) == f[|f| - 1];
    assert LastField(s[i + |d|..], d) == g[|g| - 1];
    assert f == [SubstringBefore(s, d)] + g;
    assert |f| - 1 == |g| && f[|g|] == g[|g| - 1];
  }

  /** With a one-character delimiter, the last field of a split is the text after
      the last delimiter. */
  lemma {:induction false} SplitLast(s: string, d: string)
    requires |d| == 1
    decreases |s|
    ensures LastField(s, d) == SubstringAfterLast(s, d)
  {
    var idx := IndexOf(s, d);
    if idx.Some? {
      var i := idx.value;
      var t := s[i + 1..];
      LastFieldStep(s, d, i);
      SplitLast(t, d);
      assert s[i] == s[i..i + 1][0];
      AfterLastCut(s, d, i);
    }
  }

  /** A string ending in the one-character `d` has nothing after its last `d`. */
  lemma AfterLastOfTrailing(s: string, d: string)
    requires |d| == 1 && |s| > 0 && s[|s| - 1] == d[0]
    ensures SubstringAfterLast(s, d) == ""
  {
    assert s[|s| - 1..] == d;
    assert OccursAt(s, d, |s| - 1);
    OccursAtContains(s, d, |s| - 1);
  }

  /** What follows the last `d` of `a + d + b`, for a one-character `d` that `b`
      lacks, is `b`. */
  lemma AfterLastOfChar(a: string, d: string, b: string)
    requires |d| == 1 && d[0] !in b
    ensures SubstringAfterLast(a + d + b, d) == b
  {
    var s := a + d + b;
    assert OccursAt(s, d, |a|);
    OccursAtContains(s, d, |a|);
    forall j | |a| < j < |s|
      ensures !OccursAt(s, d, j)
    {
      assert s[j] == b[j - |a| - 1];
      assert s[j..j + 1][0] == s[j];
    }
    assert s[|a| + 1..] == b;
  }

  /** What precedes the first `d` of `a + d + b`, for a one-character `d` that `a`
      lacks, is `a`. */
  lemma BeforeFirstChar(a: string, d: string, b: string)
    requires |d| == 1 && d[0] !in a
    ensures SubstringBefore(a + d + b, d) == a
  {
    SplitAtChar(a, d, b);
    SplitFirst(a + d + b, d);
  }

  /** The first character of `d` does not recur in it, so two occurrences of `d`
      can never overlap. */
  predicate HeadUnique(d: string) {
    |d| > 0 && forall k :: 0 < k < |d| ==> d[k] != d[0]
  }

  /** An occurrence of a `HeadUnique` needle cannot start inside another one. */
  lemma NoOverlap(s: string, d: string, i: int, j: int)
    requires HeadUnique(d) && OccursAt(s, d, i) && i < j < i + |d|
    ensures !OccursAt(s, d, j)
  {
    assert s[j] == s[i..i + |d|][j - i] == d[j - i];
  }

  /** What follows the last `d` of `a + d + b`, when `b` has none and `d` cannot
      overlap itself, is `b`. */
  lemma AfterLastOfNeedle(a: string, d: string, b: string)
    requires HeadUnique(d) && !Contains(b, d)
    ensures SubstringAfterLast(a + d + b, d) == b
  {
    var s := a + d + b;
    var p := |a|;
    assert s[p..p + |d|] == d;
    assert s[p + |d|..] == b;
    forall j | p < j
      ensures !OccursAt(s, d, j)
    {
      if OccursAt(s, d, j) {
        if j < p + |d| {
          NoOverlap(s, d, p, j);
        } else {
          OccursAtInSuffix(s, d, p + |d|, j - p - |d|);
          OccursAtContains(b, d, j - p - |d|);
        }
      }
    }
    AfterLastAt(s, d, p);
  }

  /** What precedes the first `d` of `a + d + b`, when `a` has none and `d` cannot
      overlap itself, is `a`. */
  lemma BeforeFirstOfNeedle(a: string, d: string, b: string)
    requires HeadUnique(d) && !Contains(a, d)
    ensures SubstringBefore(a + d + b, d) == a
  {
    var s := a + d + b;
    var u := |a|;
    assert s[u..u + |d|] == d;
    assert OccursAt(s, d, u);
    OccursAtContains(s, d, u);
    var r := SubstringBefore(s, d);
    var m := |r|;
    assert OccursAt(s, d, m);
    if m < u {
      if m + |d| <= u {
        assert s[..u] == a;
        assert a[m..m + |d|] == s[m..m + |d|];
        OccursAtContains(a, d, m);
      } else {
        NoOverlap(s, d, m, u);
      }
    }
    assert m == u;
  }

  /** Kotlin's `Char.isWhitespace()` on the JVM: `Character.isWhitespace` or
      `Character.isSpaceChar` (space, line and paragraph separators). */
  predicate IsWhitespace(c: char) {
    || c == '\t' || c == '\n' || c == '\U{000B}' || c == '\U{000C}' || c == '\r'
    || ('\U{001C}' <= c <= '\U{001F}')
    || c == ' ' || c == '\U{00A0}' || c == '\U{1680}'
    || ('\U{2000}' <= c <= '\U{200A}')
    || c == '\U{2028}' || c == '\U{2029}' || c == '\U{202F}' || c == '\U{205F}' || c == '\U{3000}'
  }

  /** Drop leading whitespace. */
  function TrimStart(s: string): (r: string)
    decreases |s|
    ensures |r| <= |s| && r == s[|s| - |r|..]
    ensures forall i :: 0 <= i < |s| - |r| ==> IsWhitespace(s[i])
    ensures |r| > 0 ==> !IsWhitespace(r[0])
  {
    if |s| > 0 && IsWhitespace(s[0]) then TrimStart(s[1..]) else s
  }

  /** Drop trailing whitespace. */
  function TrimEnd(s: string): (r: string)
    decreases |s|
    ensures r <= s
    ensures forall i :: |r| <= i < |s| ==> IsWhitespace(s[i])
    ensures |r| > 0 ==> !IsWhitespace(r[|r| - 1])
  {
    if |s| > 0 && IsWhitespace(s[|s| - 1]) then TrimEnd(s[..|s| - 1]) else s
  }

  /** `r` sits at index `lo` of `s` with only whitespace around it. */
  ghost predicate TrimmedAt(s: string, r: string, lo: int) {
    && 0 <= lo <= |s| - |r| && s[lo..lo + |r|] == r
    && (forall i :: 0 <= i < lo ==> IsWhitespace(s[i]))
    && (forall i :: lo + |r| <= i < |s| ==> IsWhitespace(s[i]))
  }

  /** Kotlin's `s.trim()`: `s` without whitespace at either end. */
  function Trim(s: string): (r: string)
    ensures |r| <= |s|
    ensures |r| > 0 ==> !IsWhitespace(r[0]) && !IsWhitespace(r[|r| - 1])
  {
    TrimEnd(TrimStart(s))
  }

  /** The trimmed text is a slice of the input with only whitespace cut away around it. */
  lemma TrimSlice(s: string)
    ensures exists lo :: TrimmedAt(s, Trim(s), lo)
  {
    var t := TrimStart(s);
    TrimmedAtOfCuts(s, t, TrimEnd(t));
    assert TrimmedAt(s, Trim(s), |s| - |t|);
  }

  /** Cutting whitespace off the front, then off the back, leaves a trimmed slice. */
  lemma TrimmedAtOfCuts(s: string, t: string, r: string)
    requires |t| <= |s| && t == s[|s| - |t|..]
    requires forall i :: 0 <= i < |s| - |t| ==> IsWhitespace(s[i])
    requires r <= t
    requires forall i :: |r| <= i < |t| ==> IsWhitespace(t[i])
    ensures TrimmedAt(s, r, |s| - |t|)
  {
    var lo := |s| - |t|;
    assert s[lo..lo + |r|] == t[..|r|] == r;
    forall i | lo + |r| <= i < |s|
      ensures IsWhitespace(s[i])
    {
      assert s[i] == t[i - lo];
    }
  }

  /** Trimming twice is trimming once. */
  lemma TrimIdempotent(s: string)
    ensures Trim(Trim(s)) == Trim(s)
  {
    var r := Trim(s);
    assert TrimStart(r) == r;
    assert TrimEnd(r) == r;
  }

  /** Kotlin's `s.replace(a, b)` for one-character strings: every `a` becomes `b`. */
  function ReplaceChar(s: string, a: char, b: char): (r: string)
    ensures |r| == |s|
    ensures forall i :: 0 <= i < |s| ==> r[i] == (if s[i] == a then b else s[i])
  {
    if |s| == 0 then ""
    else [if s[0] == a then b else s[0]] + ReplaceChar(s[1..], a, b)
  }
}

=== FILE: listing.dfy ===
/** Catalogue listings: the home-page sections, the denylist filter of
    `getMainPage` (UakinoProvider.kt lines 37-50), the tile mapping
    `toSearchResponse` (lines 52-60) and the query rewriting of `search`
    (lines 62-74). Pages arrive already reduced to the strings the selectors
    pick out. */
module Listing {
  import opened Wrappers
  import opened KotlinStrings
  import opened KotlinNumbers
  import opened ContentType

  const MainUrl: string := "https://uakino.club"

  /** The denylist. It is handed to `contains` as a `String`, so it is matched
      literally, brackets and bar included, not as a pattern. */
  const BlackUrls: string := "(/news/)|(/franchise/)"

  /** A home-page section: the URL prefix that the page number is appended to, and its title. */
  datatype Section = Section(data: string, name: string)

  const Sections: seq<Section> := [
    Section(MainUrl + "/filmy/page/", "Фільми"),
    Section(MainUrl + "/seriesss/page/", "Серіали"),
    Section(MainUrl + "/seriesss/doramy/page/", "Дорами"),
    Section(MainUrl + "/animeukr/page/", "Аніме"),
    Section(MainUrl + "/cartoon/page/", "Мультфільми"),
    Section(MainUrl + "/cartoon/cartoonseries/page/", "Мультсеріали")
  ]

  /** One listing tile, as its selectors see it:
      `title` is the text of the first `a.movie-title, div.full-movie-title`;
      `links` holds, for each `a.movie-title, a.full-movie` element in document
      order, its `href` attribute if it has one; `image` is the `src` of the first
      `img` (empty when the attribute is missing), absent when there is no image. */
  datatype Tile = Tile(title: Option<string>, links: seq<Option<string>>, image: Option<string>)

  /** What a tile becomes: `newMovieSearchResponse(title, href, TvType.Movie)`
      with the poster source (before the host's `fixUrlNull`). */
  datatype SearchResponse = SearchResponse(name: string, url: string, posterSrc: Option<string>, tvType: TvType)

  /** `select(...).attr("href")` on the matched elements: the attribute of the
      first element that has it, or empty. */
  function FirstHref(links: seq<Option<string>>): (r: string)
    ensures (forall i :: 0 <= i < |links| ==> links[i].None?) ==> r == ""
    ensures forall i :: 0 <= i < |links| && links[i].Some? && (forall j :: 0 <= j < i ==> links[j].None?) ==>
              r == links[i].value
  {
    if |links| == 0 then ""
    else if links[0].Some? then links[0].value
    else FirstHref(links[1..])
  }

  /** The tile is discarded by `filterNot`: its link literally contains the denylist string. */
  predicate Denied(tile: Tile) {
    Contains(FirstHref(tile.links), BlackUrls)
  }

  /** Kotlin's `filterNot(bad)`: the elements `bad` rejects are dropped, the rest
      keep their order. */
  function FilterNot<T(!new)>(s: seq<T>, bad: T -> bool): (r: seq<T>)
    decreases |s|
    ensures forall x :: x in r <==> x in s && !bad(x)
    ensures |r| <= |s|
  {
    if |s| == 0 then []
    else if bad(s[0]) then FilterNot(s[1..], bad)
    else [s[0]] + FilterNot(s[1..], bad)
  }

  /** `filterNot` keeps order: filtering a concatenation concatenates the filtered parts. */
  lemma {:induction false} FilterNotAppend<T(!new)>(a: seq<T>, b: seq<T>, bad: T -> bool)
    decreases |a|
    ensures FilterNot(a + b, bad) == FilterNot(a, bad) + FilterNot(b, bad)
  {
    if |a| > 0 {
      assert (a + b)[0] == a[0];
      assert (a + b)[1..] == a[1..] + b;
      FilterNotAppend(a[1..], b, bad);
    } else {
      assert a + b == b;
    }
  }

  /** `filterNot { ... contains(blackUrls) }` over the tiles, in page order. */
  function ListingFilter(tiles: seq<Tile>): (r: seq<Tile>)
    ensures forall t :: t in r <==> t in tiles && !Denied(t)
    ensures |r| <= |tiles|
  {
    FilterNot(tiles, Denied)
  }

  /** The filter keeps order: filtering a concatenation concatenates the filtered parts. */
  lemma ListingFilterAppend(a: seq<Tile>, b: seq<Tile>)
    ensures ListingFilter(a + b) == ListingFilter(a) + ListingFilter(b)
  {
    FilterNotAppend(a, b, Denied);
  }

  /** A link without an opening bracket can never hold the denylist string; in
      particular a link that has only `/news/` in it is kept. */
  lemma BracketFreeLinkKept(tile: Tile)
    requires '(' !in FirstHref(tile.links)
    ensures !Denied(tile)
  {
    var h := FirstHref(tile.links);
    forall i | 0 <= i <= |h| - |BlackUrls|
      ensures !OccursAt(h, BlackUrls, i)
    {
      assert h[i] != '(';
      assert h[i..i + |BlackUrls|][0] == h[i];
    }
  }

  lemma NewsLinkKept()
    ensures !Denied(Tile(None, [Some("https://uakino.club/news/1-x.html")], None))
    ensures Denied(Tile(None, [Some("https://uakino.club/(/news/)|(/franchise/)")], None))
  {
    BracketFreeLinkKept(Tile(None, [Some("https://uakino.club/news/1-x.html")], None));
    var h := "https://uakino.club/(/news/)|(/franchise/)";
    assert h[20..] == BlackUrls;
    assert OccursAt(h, BlackUrls, 20);
  }

  /** Kotlin's `toString()` on a nullable string: the text, or "null". */
  function OrNull(s: Option<string>): string {
    s.GetOr("null")
  }

  /** `toSearchResponse`: trimmed title, link of the first link element, image
      source; every tile is typed `Movie`. A missing title or link becomes "null". */
  function ToSearchResponse(tile: Tile): (r: SearchResponse)
    ensures r.tvType == Movie
    ensures tile.title.Some? ==> r.name == Trim(tile.title.value)
    ensures tile.title.None? ==> r.name == "null"
    ensures |tile.links| == 0 ==> r.url == "null"
    ensures |tile.links| > 0 ==> r.url == tile.links[0].GetOr("")
    ensures r.posterSrc == tile.image
  {
    SearchResponse(
      OrNull(if tile.title.Some? then Some(Trim(tile.title.value)) else None),
      OrNull(if |tile.links| > 0 then Some(tile.links[0].GetOr("")) else None),
      tile.image,
      Movie)
  }

  /** `getMainPage` on an already-fetched page: the kept tiles, mapped in order. */
  function MainPage(tiles: seq<Tile>): (r: seq<SearchResponse>)
    ensures |r| == |ListingFilter(tiles)|
    ensures forall i :: 0 <= i < |r| ==> r[i] == ToSearchResponse(ListingFilter(tiles)[i])
  {
    var kept := ListingFilter(tiles);
    seq(|kept|, i requires 0 <= i < |kept| => ToSearchResponse(kept[i]))
  }

  /** No listed item's URL contains the denylist string. */
  lemma MainPageNoDeniedUrl(tiles: seq<Tile>)
    ensures forall r :: r in MainPage(tiles) ==> !Contains(r.url, BlackUrls)
  {
    var kept := ListingFilter(tiles);
    forall r | r in MainPage(tiles)
      ensures !Contains(r.url, BlackUrls)
    {
      var i :| 0 <= i < |kept| && r == ToSearchResponse(kept[i]);
      assert kept[i] in kept;
      if |kept[i].links| > 0 && kept[i].links[0].Some? {
        assert r.url == FirstHref(kept[i].links);
      }
    }
  }

  /** The URL fetched for a section page: the section prefix, then the page number. */
  function MainPageUrl(section: Section, page: int): (url: string)
    ensures |section.data| < |url| && url[..|section.data|] == section.data
  {
    section.data + IntToString(page)
  }

  /** Every home-page section, at every page number, is fetched from the site itself. */
  lemma SectionUrlsOnSite(k: nat, page: int)
    requires k < |Sections|
    ensures MainPageUrl(Sections[k], page)[..|MainUrl|] == MainUrl
  {
    var data := Sections[k].data;
    assert data[..|MainUrl|] == MainUrl;
    assert MainPageUrl(Sections[k], page)[..|MainUrl|] == data[..|MainUrl|];
  }

  /** The page number comes back out of the URL. */
  lemma MainPageUrlPage(section: Section, page: int)
    requires IntMin <= page <= IntMax
    ensures ParseInt(MainPageUrl(section, page)[|section.data|..]) == Some(page)
  {
    assert MainPageUrl(section, page)[|section.data|..] == IntToString(page);
    ParseIntToString(page);
  }

  /** The `story` field of the search form: the query with every space turned into `+`. */
  function SearchStory(query: string): (story: string)
    ensures |story| == |query| && ' ' !in story
    ensures forall i :: 0 <= i < |query| ==> story[i] == (if query[i] == ' ' then '+' else query[i])
  {
    ReplaceChar(query, ' ', '+')
  }

  /** A query without `+` comes back from its `story` field by turning every `+`
      into a space again; a `+` of the query itself would be read as a space. */
  lemma SearchStoryRoundTrip(query: string)
    requires '+' !in query
    ensures ReplaceChar(SearchStory(query), '+', ' ') == query
  {
    var story := SearchStory(query);
    var back := ReplaceChar(story, '+', ' ');
    forall i | 0 <= i < |query|
      ensures back[i] == query[i]
    {
      assert query[i] != '+';
    }
  }

  /** `search` on an already-fetched result page: every tile mapped, none filtered. */
  function SearchResults(tiles: seq<Tile>): (r: seq<SearchResponse>)
    ensures |r| == |tiles|
    ensures forall i :: 0 <= i < |tiles| ==> r[i] == ToSearchResponse(tiles[i])
  {
    seq(|tiles|, i requires 0 <= i < |tiles| => ToSearchResponse(tiles[i]))
  }
}

=== FILE: metadata.dfy ===
/** The metadata fold of `load` (UakinoProvider.kt lines 84-100): every
    `.fi-item`/`.fi-item-s` row of the item page is a label text and a value
    text; each row updates one of year, tags, actors and rating, starting from
    fixed defaults, with later rows overwriting earlier ones. */
module Metadata {
  import opened Wrappers
  import opened KotlinStrings
  import opened KotlinNumbers

  /** One metadata row: the text of its `.fi-label` and of its `.fi-desc`. */
  datatype Row = Row(labelText: string, descText: string)

  /** The fields a row can update. `Unmatched` is the `when` falling through,
      which the always-true `contains("")` branch rules out. */
  datatype RowKind = YearRow | GenreRow | ActorsRow | RatingRow | Unmatched

  /** The fields the fold produces. `ratingText` is the text handed to the host's
      `toRatingInt`. */
  datatype Info = Info(year: int, tags: seq<string>, actors: seq<string>, ratingText: string)

  /** `toInt()` threw on the year value. */
  datatype FoldError = YearNotANumber(text: string)

  const YearLabel: string := "Рік виходу:"
  const GenreLabel: string := "Жанр:"
  const ActorsLabel: string := "Актори:"
  const TagSeparator: string := " , "
  const ActorSeparator: string := ", "

  /** Before any row: year 2023, no tags, no actors, rating text "0". */
  const Defaults: Info := Info(2023, [], [], "0")

  /** The `when` over the label: the first test that the label contains decides. */
  function KindOf(caption: string): RowKind {
    if Contains(caption, YearLabel) then YearRow
    else if Contains(caption, GenreLabel) then GenreRow
    else if Contains(caption, ActorsLabel) then ActorsRow
    else if Contains(caption, "") then RatingRow
    else Unmatched
  }

  /** Every row updates some field: any label the first three tests miss is a rating row. */
  lemma KindOfTotal(caption: string)
    ensures KindOf(caption) != Unmatched
    ensures KindOf(caption) == RatingRow <==>
              !Contains(caption, YearLabel) && !Contains(caption, GenreLabel) && !Contains(caption, ActorsLabel)
  {
    ContainsEmpty(caption);
  }

  /** A row is a year row exactly when its label holds the year caption. */
  lemma KindOfYear(caption: string)
    ensures KindOf(caption) == YearRow <==> Contains(caption, YearLabel)
  {
  }

  /** Apply one row to the fields gathered so far. */
  function Apply(info: Info, row: Row): (r: Result<Info, FoldError>)
    ensures r.Failure? <==> KindOf(row.labelText) == YearRow && ParseInt(row.descText).None?
    ensures r.Success? ==> r.value.year == (if KindOf(row.labelText) == YearRow then ParseInt(row.descText).value else info.year)
    ensures r.Success? && KindOf(row.labelText) != GenreRow ==> r.value.tags == info.tags
    ensures r.Success? && KindOf(row.labelText) != ActorsRow ==> r.value.actors == info.actors
    ensures r.Success? && KindOf(row.labelText) != RatingRow ==> r.value.ratingText == info.ratingText
  {
    match KindOf(row.labelText)
    case YearRow =>
      (match ParseInt(row.descText)
       case Some(y) => Success(info.(year := y))
       case None => Failure(YearNotANumber(row.descText)))
    case GenreRow => Success(info.(tags := Split(row.descText, TagSeparator)))
    case ActorsRow => Success(info.(actors := Split(row.descText, ActorSeparator)))
    case RatingRow => Success(info.(ratingText := SubstringBefore(row.descText, "/")))
    case Unmatched => Success(info)
  }

  /** The `forEach` over the rows, in page order. An unparsable year aborts the
      whole fold. */
  function Fold(rows: seq<Row>): Result<Info, FoldError>
    decreases |rows|
  {
    if |rows| == 0 then Success(Defaults)
    else
      var prev :- Fold(rows[..|rows| - 1]);
      Apply(prev, rows[|rows| - 1])
  }

  /** The last row of the given kind, if any. */
  function LastOfKind(rows: seq<Row>, kind: RowKind): (r: Option<Row>)
    decreases |rows|
    ensures r.Some? ==> r.value in rows && KindOf(r.value.labelText) == kind
    ensures r.None? ==> forall i :: 0 <= i < |rows| ==> KindOf(rows[i].labelText) != kind
  {
    if |rows| == 0 then None
    else if KindOf(rows[|rows| - 1].labelText) == kind then Some(rows[|rows| - 1])
    else LastOfKind(rows[..|rows| - 1], kind)
  }

  /** The row found is the last of its kind: no later row has that kind. */
  lemma {:induction false} LastOfKindIsLast(rows: seq<Row>, kind: RowKind)
    decreases |rows|
    requires LastOfKind(rows, kind).Some?
    ensures exists i :: 0 <= i < |rows| && rows[i] == LastOfKind(rows, kind).value
                        && forall j :: i < j < |rows| ==> KindOf(rows[j].labelText) != kind
  {
    var n := |rows| - 1;
    if KindOf(rows[n].labelText) != kind {
      var init := rows[..n];
      LastOfKindIsLast(init, kind);
      var i :| 0 <= i < |init| && init[i] == LastOfKind(init, kind).value
               && forall j :: i < j < |init| ==> KindOf(init[j].labelText) != kind;
      assert rows[i] == init[i];
      forall j | i < j < |rows|
        ensures KindOf(rows[j].labelText) != kind
      {
        if j < n {
          assert rows[j] == init[j];
        }
      }
    } else {
      assert rows[n] == LastOfKind(rows, kind).value;
    }
  }

  /** Every year row carries a number. */
  predicate YearsParse(rows: seq<Row>) {
    forall i :: 0 <= i < |rows| && KindOf(rows[i].labelText) == YearRow ==> ParseInt(rows[i].descText).Some?
  }

  /** Each field as the last row of its kind sets it, or its default. */
  function FromLastRows(rows: seq<Row>): Info
    requires YearsParse(rows)
  {
    Info(
      match LastOfKind(rows, YearRow) case Some(r) => ParseInt(r.descText).GetOr(2023) case None => 2023,
      match LastOfKind(rows, GenreRow) case Some(r) => Split(r.descText, TagSeparator) case None => [],
      match LastOfKind(rows, ActorsRow) case Some(r) => Split(r.descText, ActorSeparator) case None => [],
      match LastOfKind(rows, RatingRow) case Some(r) => SubstringBefore(r.descText, "/") case None => "0")
  }

  /** Adding one row to the end changes only the field of that row's kind. */
  lemma FromLastRowsStep(rows: seq<Row>)
    requires |rows| > 0 && YearsParse(rows)
    ensures YearsParse(rows[..|rows| - 1])
    ensures Apply(FromLastRows(rows[..|rows| - 1]), rows[|rows| - 1]) == Success(FromLastRows(rows))
  {
    var init := rows[..|rows| - 1];
    var last := rows[|rows| - 1];
    assert forall i :: 0 <= i < |init| ==> init[i] == rows[i];
    KindOfTotal(last.labelText);
  }

  /** The fold, read field by field: it fails exactly when some year row (not
      only the last) is not a number; otherwise each field comes from the last
      row of its kind, split on its separator, or keeps its default. */
  lemma {:induction false} FoldIsLastRowPerField(rows: seq<Row>)
    decreases |rows|
    ensures Fold(rows).Success? <==> YearsParse(rows)
    ensures Fold(rows).Success? ==> YearsParse(rows) && Fold(rows).value == FromLastRows(rows)
  {
    if |rows| > 0 {
      var init := rows[..|rows| - 1];
      var last := rows[|rows| - 1];
      FoldIsLastRowPerField(init);
      assert forall i :: 0 <= i < |init| ==> init[i] == rows[i];
      if YearsParse(rows) {
        FromLastRowsStep(rows);
      } else {
        var i :| 0 <= i < |rows| && KindOf(rows[i].labelText) == YearRow && ParseInt(rows[i].descText).None?;
        if i < |init| {
          assert !YearsParse(init);
        } else {
          assert i == |rows| - 1;
        }
      }
    }
  }

  /** A row list without a year row never fails, and no rows at all give the defaults. */
  lemma FoldDefaults(rows: seq<Row>)
    requires forall i :: 0 <= i < |rows| ==> !Contains(rows[i].labelText, YearLabel)
    ensures Fold(rows).Success?
    ensures Fold(rows).value.year == 2023
    ensures rows == [] ==> Fold(rows) == Success(Defaults)
  {
    forall i | 0 <= i < |rows|
      ensures KindOf(rows[i].labelText) != YearRow
    {
      KindOfYear(rows[i].labelText);
    }
    assert YearsParse(rows);
    FoldIsLastRowPerField(rows);
    assert LastOfKind(rows, YearRow).None?;
  }
}

=== FILE: provider.dfy ===
/** The two pipelines of the provider that combine the pieces: `load`
    (UakinoProvider.kt lines 77-170) and `loadLinks` (lines 173-284). Every
    network answer and every parsed document is an input: `Web` gives what a
    fetch of a URL would yield, already reduced to the strings the selectors
    pick out, and `clock` gives the successive readings of `Date().time`. */
module Provider {
  import opened Wrappers
  import opened KotlinStrings
  import opened KotlinNumbers
  import opened ContentType
  import opened Metadata
  import opened Listing
  import opened Episodes
  import opened Streams

  /** One `div.playlists-videos li` of the playlist HTML: its text, its
      `data-file` and its `data-voice` (empty when missing). */
  datatype PlaylistItem = PlaylistItem(text: string, file: string, voice: string)

  /** The decoded `Responses(success, response)` envelope, with the `response`
      HTML already reduced to its playlist items. */
  datatype Envelope = Envelope(success: Option<bool>, items: seq<PlaylistItem>)

  /** An item page as the selectors of `load` and `loadLinks` see it. */
  datatype ItemPage = ItemPage(
    title: Option<string>,          // h1 span.solototle
    posterSrc: Option<string>,      // div.film-poster img, src
    rows: seq<Row>,                 // .fi-item-s, .fi-item
    description: Option<string>,    // div[itemprop=description]
    trailerSrc: Option<string>,     // iframe#pre, data-src
    iframeSrc: Option<string>,      // iframe#pre, src
    related: seq<Tile>)             // .related-item

  /** What fetching a URL yields: the ajax envelope (absent when `parsedSafe`
      fails), the item page, and the data of every `script` of the page. */
  datatype Web = Web(
    ajax: string -> Option<Envelope>,
    page: string -> ItemPage,
    scripts: string -> seq<string>)

  /** Everything both response kinds carry besides name, URL and type.
      `poster` and `ratingText` are the arguments of the host's `fixUrl` and
      `toRatingInt`. */
  datatype Details = Details(
    poster: string, year: int, plot: Option<string>, tags: seq<string>,
    ratingText: string, actors: seq<string>, recommendations: seq<SearchResponse>,
    trailer: Option<string>)

  datatype LoadResponse =
    | SeriesLoad(name: string, url: string, tvType: TvType, episodes: seq<Episode>, details: Details)
    | MovieLoad(name: string, url: string, tvType: TvType, dataUrl: string, details: Details)

  /** `?.text()?.trim().toString()`. */
  function TrimmedOrNull(text: Option<string>): string {
    OrNull(if text.Some? then Some(Trim(text.value)) else None)
  }

  /** The texts of the playlist items of an envelope; a failed decode parses
      the text "null", which has none. */
  function PlaylistTexts(env: Option<Envelope>): (texts: seq<string>)
    ensures env.None? ==> texts == []
    ensures env.Some? ==> |texts| == |env.value.items|
    ensures env.Some? ==> forall k :: 0 <= k < |texts| ==> texts[k] == env.value.items[k].text
  {
    match env
    case None => []
    case Some(e) => seq(|e.items|, k requires 0 <= k < |e.items| => e.items[k].text)
  }

  /** The details both response builders receive: the poster source, the folded
      metadata, the trimmed plot, the related tiles and the trailer source. */
  function PageDetails(page: ItemPage, info: Info): Details {
    Details(
      OrNull(page.posterSrc), info.year,
      if page.description.Some? then Some(Trim(page.description.value)) else None,
      info.tags, info.ratingText, info.actors,
      SearchResults(page.related), page.trailerSrc)
  }

  /** `load(url)`: fold the metadata (an unparsable year throws), classify, and
      either fetch and de-duplicate the episode list or hand back the page URL
      as the movie's data. */
  function Load(url: string, page: ItemPage, web: Web, clock: nat -> nat): Result<LoadResponse, FoldError> {
    var info :- Fold(page.rows);
    var tvType := ClassifyItem(info.tags, url);
    var details := PageDetails(page, info);
    var name := TrimmedOrNull(page.title);
    if IsSeriesType(tvType) then
      var id := ItemId(url);
      var texts := PlaylistTexts(web.ajax(AjaxUrl(id, clock(0))));
      Success(SeriesLoad(name, url, tvType, SeriesEpisodes(id, texts, clock), details))
    else
      Success(MovieLoad(name, url, tvType, url, details))
  }

  /** A response for `url` whose tags were `tags`: typed by the classification
      (never `Others`), a series exactly for a series type, a movie playing its
      own URL. */
  predicate ShapedFor(r: LoadResponse, url: string, tags: seq<string>) {
    && r.tvType != Others
    && r.tvType == ClassifyItem(tags, url)
    && (r.SeriesLoad? <==> IsSeriesType(r.tvType))
    && (r.MovieLoad? ==> r.dataUrl == url)
    && r.url == url
  }

  /** `load` fails only where a year row is not a number; otherwise the type is
      never `Others`, the series branch is taken exactly for a series type, and a
      movie's data is its own URL. */
  lemma LoadShape(url: string, page: ItemPage, web: Web, clock: nat -> nat)
    ensures Load(url, page, web, clock).Failure? <==> !YearsParse(page.rows)
    ensures Load(url, page, web, clock).Success? ==>
              ShapedFor(Load(url, page, web, clock).value, url, Fold(page.rows).value.tags)
  {
    FoldIsLastRowPerField(page.rows);
  }

  /** A response carries what the page says of the item: the trimmed title as its
      name, each metadata field as the last row of its kind sets it (or its
      default), the poster, plot and trailer sources, and the related tiles
      mapped as search results. */
  predicate DescribedBy(r: LoadResponse, page: ItemPage)
    requires YearsParse(page.rows)
  {
    && r.name == TrimmedOrNull(page.title)
    && r.details.year == FromLastRows(page.rows).year
    && r.details.tags == FromLastRows(page.rows).tags
    && r.details.actors == FromLastRows(page.rows).actors
    && r.details.ratingText == FromLastRows(page.rows).ratingText
    && r.details.poster == OrNull(page.posterSrc)
    && r.details.plot == (if page.description.Some? then Some(Trim(page.description.value)) else None)
    && r.details.trailer == page.trailerSrc
    && r.details.recommendations == SearchResults(page.related)
  }

  /** A successful `load` describes the item by its page: the metadata come from
      the last row of each kind, whether or not the episode list is fetched. */
  lemma LoadDetails(url: string, page: ItemPage, web: Web, clock: nat -> nat)
    requires Load(url, page, web, clock).Success?
    ensures YearsParse(page.rows)
    ensures DescribedBy(Load(url, page, web, clock).value, page)
  {
    FoldIsLastRowPerField(page.rows);
    var r := Load(url, page, web, clock).value;
    assert r.name == TrimmedOrNull(page.title);
    assert r.details == PageDetails(page, FromLastRows(page.rows));
  }

  /** The episode list of a serial: one episode per playlist text, built
      against successive clock readings, then de-duplicated by name. The names
      are distinct, every playlist name survives, and each episode's data
      decodes, when neither the id nor the name holds a comma, to a playlist URL
      of this very item and the episode's name. */
  function SeriesEpisodes(id: string, texts: seq<string>, clock: nat -> nat): (eps: seq<Episode>)
    ensures DistinctNames(eps)
    ensures forall t :: t in texts ==> Trim(t) in Names(eps)
    ensures Names(eps) == TrimmedTexts(texts)
    ensures forall e :: e in eps ==> exists k :: 0 <= k < |texts| && e == BuiltEpisode(id, texts, clock, k)
    ensures forall e :: e in eps && ',' !in id && ',' !in e.name ==>
              exists time :: DecodeData(e.data) == [AjaxUrl(id, time), e.name]
  {
    var all := BuildEpisodes(id, texts, clock);
    BuiltNamesKept(id, texts, clock);
    BuiltNamesExact(id, texts, clock);
    BuiltDataDecodes(id, texts, clock);
    BuiltFromPlaylist(id, texts, clock);
    DistinctByName(all)
  }

  /** The trimmed playlist texts: the names the episode list must carry. */
  function TrimmedTexts(texts: seq<string>): set<string> {
    set t | t in texts :: Trim(t)
  }

  /** The episode built from playlist item `k`: named by its trimmed text, with
      the playlist URL of clock reading `k + 1`. */
  function BuiltEpisode(id: string, texts: seq<string>, clock: nat -> nat, k: nat): Episode
    requires k < |texts|
  {
    Episode(EpisodeData(AjaxUrl(id, clock(k + 1)), Trim(texts[k])), Trim(texts[k]))
  }

  /** Every playlist text, trimmed, names some built episode. */
  lemma BuiltNamesKept(id: string, texts: seq<string>, clock: nat -> nat)
    ensures forall t :: t in texts ==> Trim(t) in Names(BuildEpisodes(id, texts, clock))
  {
    var all := BuildEpisodes(id, texts, clock);
    BuildEpisodesItems(id, texts, clock);
    forall t | t in texts
      ensures Trim(t) in Names(all)
    {
      var k :| 0 <= k < |texts| && texts[k] == t;
      assert all[k] in all;
    }
  }

  /** The built episodes carry exactly the trimmed playlist texts as names. */
  lemma BuiltNamesExact(id: string, texts: seq<string>, clock: nat -> nat)
    ensures Names(BuildEpisodes(id, texts, clock)) == TrimmedTexts(texts)
  {
    BuildEpisodesItems(id, texts, clock);
    NamesOfTrimmed(BuildEpisodes(id, texts, clock), texts);
  }

  /** Episodes named, one for one, by the trimmed texts have exactly those names. */
  lemma NamesOfTrimmed(eps: seq<Episode>, texts: seq<string>)
    requires |eps| == |texts|
    requires forall k :: 0 <= k < |texts| ==> eps[k].name == Trim(texts[k])
    ensures Names(eps) == TrimmedTexts(texts)
  {
    forall x | x in Names(eps)
      ensures x in TrimmedTexts(texts)
    {
      var e :| e in eps && e.name == x;
      var k :| 0 <= k < |eps| && eps[k] == e;
      assert texts[k] in texts;
    }
    forall x | x in TrimmedTexts(texts)
      ensures x in Names(eps)
    {
      var t :| t in texts && Trim(t) == x;
      var k :| 0 <= k < |texts| && texts[k] == t;
      assert eps[k] in eps;
    }
  }

  /** Every built episode is the one built from some playlist item. */
  lemma BuiltFromPlaylist(id: string, texts: seq<string>, clock: nat -> nat)
    ensures forall e :: e in BuildEpisodes(id, texts, clock) ==>
              exists k :: 0 <= k < |texts| && e == BuiltEpisode(id, texts, clock, k)
  {
    var all := BuildEpisodes(id, texts, clock);
    BuildEpisodesItems(id, texts, clock);
    forall e | e in all
      ensures exists k :: 0 <= k < |texts| && e == BuiltEpisode(id, texts, clock, k)
    {
      var k :| 0 <= k < |all| && all[k] == e;
      assert e == BuiltEpisode(id, texts, clock, k);
    }
  }

  /** Every built episode's data decodes to a playlist URL of the item and its name. */
  lemma BuiltDataDecodes(id: string, texts: seq<string>, clock: nat -> nat)
    ensures forall e :: e in BuildEpisodes(id, texts, clock) && ',' !in id && ',' !in e.name ==>
              exists time :: DecodeData(e.data) == [AjaxUrl(id, time), e.name]
  {
    var all := BuildEpisodes(id, texts, clock);
    BuildEpisodesItems(id, texts, clock);
    forall e | e in all && ',' !in id && ',' !in e.name
      ensures exists time :: DecodeData(e.data) == [AjaxUrl(id, time), e.name]
    {
      var k :| 0 <= k < |all| && all[k] == e;
      var href := AjaxUrl(id, clock(k + 1));
      assert e.data == EpisodeData(href, e.name);
      AjaxUrlCommaFree(id, clock(k + 1));
      DecodeEpisodeData(href, e.name);
    }
  }

  /** The episodes `load` returns are those of the item's own id, so with a
      comma-free URL their data points back at this item's playlist. */
  lemma LoadEpisodes(url: string, page: ItemPage, web: Web, clock: nat -> nat)
    requires Load(url, page, web, clock).Success? && Load(url, page, web, clock).value.SeriesLoad?
    ensures Load(url, page, web, clock).value.episodes
              == SeriesEpisodes(ItemId(url), PlaylistTexts(web.ajax(AjaxUrl(ItemId(url), clock(0)))), clock)
    ensures DistinctNames(Load(url, page, web, clock).value.episodes)
    ensures forall e :: e in Load(url, page, web, clock).value.episodes && ',' !in url && ',' !in e.name ==>
              exists time :: DecodeData(e.data) == [AjaxUrl(ItemId(url), time), e.name]
  {
    ItemIdChars(url);
  }

  /** `generateM3u8` requests for the playlist items of a serial: each item's
      link is brought to `https:`, fetched, and its player scripts are sliced,
      labelled with the item's voice. */
  function SeriesStreams(items: seq<PlaylistItem>, web: Web): (r: seq<M3u8Request>)
    decreases |items|
    ensures forall k :: 0 <= k < |r| ==> r[k].referer == AshdiReferer && !Contains(r[k].streamUrl, EndMarker)
  {
    if |items| == 0 then []
    else ScriptStreams(web.scripts(EnsureHttps(items[0].file)), items[0].voice) + SeriesStreams(items[1..], web)
  }

  /** One item alone: the marked scripts of the page at its `https:` link, labelled with its voice. */
  lemma SeriesStreamsOne(it: PlaylistItem, web: Web)
    ensures SeriesStreams([it], web) == ScriptStreams(web.scripts(EnsureHttps(it.file)), it.voice)
  {
    assert [it][1..] == [];
    assert SeriesStreams([it], web) == ScriptStreams(web.scripts(EnsureHttps(it.file)), it.voice) + [];
  }

  /** Items are served in playlist order: the requests of a concatenation are
      the requests of the first part, then those of the second. */
  lemma {:induction false} SeriesStreamsAppend(a: seq<PlaylistItem>, b: seq<PlaylistItem>, web: Web)
    decreases |a|
    ensures SeriesStreams(a + b, web) == SeriesStreams(a, web) + SeriesStreams(b, web)
  {
    if |a| > 0 {
      assert (a + b)[0] == a[0];
      assert (a + b)[1..] == a[1..] + b;
      SeriesStreamsAppend(a[1..], b, web);
    } else {
      assert a + b == b;
    }
  }

  /** Every request of a serial is labelled with the voice of one of its items. */
  lemma {:induction false} SeriesStreamsVoices(items: seq<PlaylistItem>, web: Web)
    decreases |items|
    ensures forall q: M3u8Request :: q in SeriesStreams(items, web) ==> exists it: PlaylistItem :: it in items && q.source == it.voice
  {
    if |items| > 0 {
      var head := ScriptStreams(web.scripts(EnsureHttps(items[0].file)), items[0].voice);
      var rest := SeriesStreams(items[1..], web);
      assert SeriesStreams(items, web) == head + rest;
      SeriesStreamsVoices(items[1..], web);
      forall q: M3u8Request | q in head + rest
        ensures exists it: PlaylistItem :: it in items && q.source == it.voice
      {
        if q in head {
          var k :| 0 <= k < |head| && head[k] == q;
          assert items[0] in items;
        } else {
          var it :| it in items[1..] && q.source == it.voice;
          assert it in items;
        }
      }
    }
  }

  /** The fallback for a film: the item page's iframe is fetched and its player
      scripts are sliced, labelled with the page title; no iframe, no request. */
  function MovieStreams(data: string, web: Web): (r: seq<M3u8Request>)
    ensures forall k :: 0 <= k < |r| ==> r[k].referer == AshdiReferer && !Contains(r[k].streamUrl, EndMarker)
    ensures forall k :: 0 <= k < |r| ==> r[k].source == TrimmedOrNull(web.page(data).title)
    ensures web.page(data).iframeSrc.None? ==> r == []
  {
    var page := web.page(data);
    match page.iframeSrc
    case None => []
    case Some(src) => ScriptStreams(web.scripts(src), TrimmedOrNull(page.title))
  }

  /** The player scripts of a film's iframe page; none without an iframe. */
  function FilmScripts(data: string, web: Web): seq<string> {
    match web.page(data).iframeSrc
    case None => []
    case Some(src) => MarkedScripts(web.scripts(src))
  }

  /** The film fallback makes one request per player script of the iframe page,
      in script order, each labelled with the page title. */
  lemma MovieStreamsExact(data: string, web: Web)
    ensures |MovieStreams(data, web)| == |FilmScripts(data, web)|
    ensures forall k :: 0 <= k < |FilmScripts(data, web)| ==>
              MovieStreams(data, web)[k]
                == M3u8Request(TrimmedOrNull(web.page(data).title), PlaylistSlice(FilmScripts(data, web)[k]), AshdiReferer)
  {
    var page := web.page(data);
    if page.iframeSrc.Some? {
      ScriptStreamsOfMarked(web.scripts(page.iframeSrc.value), TrimmedOrNull(page.title));
    }
  }

  /** `responseGet?.success == true`. */
  predicate Succeeded(env: Option<Envelope>) {
    env.Some? && env.value.success == Some(true)
  }

  /** The playlist items whose text the `li:contains(name)` selector accepts;
      `matches` stands for the selector's text test. */
  function ItemsMatching(items: seq<PlaylistItem>, name: string, matches: (string, string) -> bool): (r: seq<PlaylistItem>)
    decreases |items|
    ensures forall it :: it in r <==> it in items && matches(it.text, name)
    ensures |r| <= |items|
  {
    if |items| == 0 then []
    else if matches(items[0].text, name) then [items[0]] + ItemsMatching(items[1..], name, matches)
    else ItemsMatching(items[1..], name, matches)
  }

  /** The selection keeps playlist order: selecting from a concatenation
      concatenates the selections. */
  lemma {:induction false} ItemsMatchingAppend(a: seq<PlaylistItem>, b: seq<PlaylistItem>, name: string,
                                               matches: (string, string) -> bool)
    decreases |a|
    ensures ItemsMatching(a + b, name, matches) == ItemsMatching(a, name, matches) + ItemsMatching(b, name, matches)
  {
    if |a| > 0 {
      assert (a + b)[0] == a[0];
      assert (a + b)[1..] == a[1..] + b;
      ItemsMatchingAppend(a[1..], b, name, matches);
    } else {
      assert a + b == b;
    }
  }

  /** `loadLinks(data)`: one field is a page URL (its item's playlist is tried,
      all items; else the film fallback), more fields are an episode (its
      playlist URL is fetched and the items matching its name are used; else the
      film fallback on the whole data). `now` is the clock reading. */
  function LoadLinks(data: string, web: Web, now: nat, matches: (string, string) -> bool): seq<M3u8Request> {
    var fields := DecodeData(data);
    if |fields| == 1 then
      var env := web.ajax(AjaxUrl(ItemId(data), now));
      if Succeeded(env) then SeriesStreams(env.value.items, web) else MovieStreams(data, web)
    else
      var env := web.ajax(fields[0]);
      if Succeeded(env) then SeriesStreams(ItemsMatching(env.value.items, fields[1], matches), web)
      else MovieStreams(data, web)
  }

  /** A page URL whose own playlist reports success streams every item of that
      playlist, in order, with no selection by name. */
  lemma LoadLinksSerialPage(data: string, web: Web, now: nat, matches: (string, string) -> bool)
    requires ',' !in data && Succeeded(web.ajax(AjaxUrl(ItemId(data), now)))
    ensures LoadLinks(data, web, now, matches) == SeriesStreams(web.ajax(AjaxUrl(ItemId(data), now)).value.items, web)
  {
    DecodeMovieData(data);
  }

  /** A playlist item that some fetch of the given URL delivered. */
  predicate Delivered(web: Web, url: string, it: PlaylistItem) {
    web.ajax(url).Some? && it in web.ajax(url).value.items
  }

  /** Every request `loadLinks` makes carries the ashdi referer and a stream URL
      free of `",`, and is labelled either by the voice of a delivered playlist
      item or by the page title. */
  lemma LoadLinksRequests(data: string, web: Web, now: nat, matches: (string, string) -> bool)
    ensures forall q :: q in LoadLinks(data, web, now, matches) ==>
              && q.referer == AshdiReferer
              && !Contains(q.streamUrl, EndMarker)
              && (q.source == TrimmedOrNull(web.page(data).title)
                  || exists url, it :: Delivered(web, url, it) && q.source == it.voice)
  {
    var fields := DecodeData(data);
    var url := if |fields| == 1 then AjaxUrl(ItemId(data), now) else fields[0];
    var env := web.ajax(url);
    var r := LoadLinks(data, web, now, matches);
    if Succeeded(env) {
      var items := if |fields| == 1 then env.value.items
                   else ItemsMatching(env.value.items, fields[1], matches);
      assert r == SeriesStreams(items, web);
      SeriesStreamsVoices(items, web);
      forall q | q in r
        ensures exists url, it :: Delivered(web, url, it) && q.source == it.voice
      {
        var it :| it in items && q.source == it.voice;
        assert Delivered(web, url, it);
      }
    } else {
      assert r == MovieStreams(data, web);
    }
    forall q | q in r
      ensures q.referer == AshdiReferer && !Contains(q.streamUrl, EndMarker)
    {
      var k :| 0 <= k < |r| && r[k] == q;
    }
  }

  /** A page URL whose playlist does not report success takes the film path:
      one request per player script of the iframe page, in order, each labelled
      with the page title, and none without an iframe. */
  lemma LoadLinksMovieFallback(data: string, web: Web, now: nat, matches: (string, string) -> bool)
    requires ',' !in data
    requires !Succeeded(web.ajax(AjaxUrl(ItemId(data), now)))
    ensures LoadLinks(data, web, now, matches) == MovieStreams(data, web)
    ensures |LoadLinks(data, web, now, matches)| == |FilmScripts(data, web)|
    ensures forall k :: 0 <= k < |FilmScripts(data, web)| ==>
              LoadLinks(data, web, now, matches)[k]
                == M3u8Request(TrimmedOrNull(web.page(data).title), PlaylistSlice(FilmScripts(data, web)[k]), AshdiReferer)
    ensures web.page(data).iframeSrc.None? ==> LoadLinks(data, web, now, matches) == []
  {
    DecodeMovieData(data);
    MovieStreamsExact(data, web);
  }

  /** Round trip from `load` to `loadLinks`: the data of an episode named
      `name` makes `loadLinks` fetch exactly the playlist URL the episode was
      built from and keep the items the selector's text test accepts for that
      full, untruncated name. */
  lemma LoadLinksOfEpisode(id: string, time: nat, name: string, web: Web, now: nat,
                           matches: (string, string) -> bool)
    requires ',' !in id && ',' !in name
    ensures Succeeded(web.ajax(AjaxUrl(id, time))) ==>
              LoadLinks(EpisodeData(AjaxUrl(id, time), name), web, now, matches)
                == SeriesStreams(ItemsMatching(web.ajax(AjaxUrl(id, time)).value.items, name, matches), web)
    ensures !Succeeded(web.ajax(AjaxUrl(id, time))) ==>
              LoadLinks(EpisodeData(AjaxUrl(id, time), name), web, now, matches)
                == MovieStreams(EpisodeData(AjaxUrl(id, time), name), web)
  {
    AjaxUrlCommaFree(id, time);
    DecodeEpisodeData(AjaxUrl(id, time), name);
  }
}

=== FILE: streams.dfy ===
/** Stream extraction in `loadLinks` (UakinoProvider.kt lines 188-207, 218-228,
    239-257, 267-277): the `https:` prefix for player links, and the playlist
    URL sliced out of the player script between `file:"` and `",`. */
module Streams {
  import opened KotlinStrings

  /** The marker of the script that initialises the player. */
  const PlayerMarker: string := "var player = new Playerjs({"
  /** The literal text in front of the playlist URL. */
  const FileMarker: string := "file:\""
  /** The literal text behind the playlist URL. */
  const EndMarker: string := "\","
  /** The referer handed with every playlist. */
  const AshdiReferer: string := "https://ashdi.vip/"

  const Https: string := "https://"

  /** `if (!href.contains("https://")) href = "https:$href"`. */
  function EnsureHttps(href: string): (r: string)
    ensures |href| <= |r| && r[|r| - |href|..] == href
    ensures r == href <==> Contains(href, Https)
    ensures r != href ==> r == "https:" + href
  {
    if Contains(href, Https) then href else "https:" + href
  }

  /** A protocol-relative link `//host/path` becomes `https://host/path`. */
  lemma EnsureHttpsProtocolRelative(href: string)
    requires |href| >= 2 && href[..2] == "//" && !Contains(href, Https)
    ensures EnsureHttps(href) == Https + href[2..]
  {
    assert href == "//" + href[2..];
  }

  /** After normalisation the link holds `https://` exactly when it already did
      or it was protocol-relative. Any other link without it, `http://...`
      included, only gains the bare `https:` in front. */
  lemma EnsureHttpsScheme(href: string)
    ensures Contains(EnsureHttps(href), Https) <==>
              Contains(href, Https) || (|href| >= 2 && href[..2] == "//")
  {
    var r := EnsureHttps(href);
    if !Contains(href, Https) {
      assert r == "https:" + href;
      if |href| >= 2 && href[..2] == "//" {
        assert r[0..8] == Https;
        OccursAtContains(r, Https, 0);
      }
      if Contains(r, Https) {
        var i :| 0 <= i <= |r| - |Https| && OccursAt(r, Https, i);
        assert r[i] == 'h' by { assert r[i..i + 8][0] == r[i]; }
        if i >= 6 {
          assert r[6..] == href;
          OccursAtInSuffix(r, Https, 6, i - 6);
          OccursAtContains(href, Https, i - 6);
        }
        assert i == 0;
        assert href[..2] == r[6..8] == r[i..i + 8][6..8];
      }
    }
  }

  /** `substringAfterLast("file:\"").substringBefore("\",")`. */
  function PlaylistSlice(script: string): (url: string)
    ensures !Contains(url, EndMarker)
  {
    SubstringBefore(SubstringAfterLast(script, FileMarker), EndMarker)
  }

  /** A needle whose first character is missing from the text is not in it. */
  lemma FirstCharMissing(s: string, d: string)
    requires |d| > 0 && d[0] !in s
    ensures !Contains(s, d)
  {
    forall i | 0 <= i <= |s| - |d|
      ensures !OccursAt(s, d, i)
    {
      assert s[i..i + |d|][0] == s[i];
    }
  }

  /** The slice returns exactly the URL between the last `file:"` and the first
      `",` after it. */
  lemma PlaylistSliceExact(prefix: string, url: string, rest: string)
    requires !Contains(url, EndMarker)
    requires !Contains(url + EndMarker + rest, FileMarker)
    ensures PlaylistSlice(prefix + FileMarker + url + EndMarker + rest) == url
  {
    assert prefix + FileMarker + url + EndMarker + rest == prefix + FileMarker + (url + EndMarker + rest);
    AfterLastOfNeedle(prefix, FileMarker, url + EndMarker + rest);
    BeforeFirstOfNeedle(url, EndMarker, rest);
  }

  /** With neither marker present the script comes back unchanged. */
  lemma PlaylistSliceNoMarkers(script: string)
    requires !Contains(script, FileMarker) && !Contains(script, EndMarker)
    ensures PlaylistSlice(script) == script
  {
  }

  /** `...file:"http://x/y.m3u8",...` gives `http://x/y.m3u8` whatever surrounds
      it, as long as no later `file:"` follows. */
  lemma PlaylistSliceExample(prefix: string, rest: string)
    requires !Contains(rest, FileMarker)
    ensures PlaylistSlice(prefix + "file:\"http://x/y.m3u8\"," + rest) == "http://x/y.m3u8"
  {
    var url := "http://x/y.m3u8";
    assert prefix + "file:\"http://x/y.m3u8\"," + rest == prefix + FileMarker + url + EndMarker + rest;
    ExampleUrlMarkers();
    NoMarkerAcrossJoin(url + EndMarker, rest);
    PlaylistSliceExact(prefix, url, rest);
  }

  /** The sample URL holds no `",`, and with `",` behind it neither `file:"` nor an `f`. */
  lemma ExampleUrlMarkers()
    ensures !Contains("http://x/y.m3u8", EndMarker)
    ensures 'f' !in "http://x/y.m3u8" + EndMarker
  {
    var url := "http://x/y.m3u8";
    assert '"' !in url;
    assert HeadUnique(EndMarker);
    FirstCharMissing(url, EndMarker);
  }

  /** Gluing a text without `file:"` that has no `f` to another without `file:"` creates none. */
  lemma NoMarkerAcrossJoin(a: string, b: string)
    requires 'f' !in a && !Contains(b, FileMarker)
    ensures !Contains(a + b, FileMarker)
  {
    var s := a + b;
    forall i | 0 <= i <= |s| - |FileMarker|
      ensures !OccursAt(s, FileMarker, i)
    {
      if i < |a| {
        assert s[i] == a[i];
        assert s[i..i + 6][0] == s[i];
      } else {
        assert s[|a|..] == b;
        if OccursAt(s, FileMarker, i) {
          OccursAtInSuffix(s, FileMarker, |a|, i - |a|);
          OccursAtContains(b, FileMarker, i - |a|);
        }
      }
    }
  }

  /** One `M3u8Helper.generateM3u8(source, streamUrl, referer)` call. */
  datatype M3u8Request = M3u8Request(source: string, streamUrl: string, referer: string)

  /** The scripts that initialise the player, in page order. */
  function MarkedScripts(scripts: seq<string>): (m: seq<string>)
    decreases |scripts|
    ensures forall s :: s in m <==> s in scripts && Contains(s, PlayerMarker)
    ensures |m| <= |scripts|
  {
    if |scripts| == 0 then []
    else if Contains(scripts[0], PlayerMarker) then [scripts[0]] + MarkedScripts(scripts[1..])
    else MarkedScripts(scripts[1..])
  }

  /** The `select("script").map { ... }` pass: every script carrying the player
      marker yields one request, in script order; other scripts yield nothing. */
  function ScriptStreams(scripts: seq<string>, source: string): (r: seq<M3u8Request>)
    decreases |scripts|
    ensures |r| <= |scripts|
    ensures forall k :: 0 <= k < |r| ==> r[k].source == source && r[k].referer == AshdiReferer
                                         && !Contains(r[k].streamUrl, EndMarker)
  {
    if |scripts| == 0 then []
    else
      var head := if Contains(scripts[0], PlayerMarker)
                  then [M3u8Request(source, PlaylistSlice(scripts[0]), AshdiReferer)] else [];
      head + ScriptStreams(scripts[1..], source)
  }

  /** The requests are exactly the slices of the marked scripts, one each, in order. */
  lemma {:induction false} ScriptStreamsOfMarked(scripts: seq<string>, source: string)
    decreases |scripts|
    ensures |ScriptStreams(scripts, source)| == |MarkedScripts(scripts)|
    ensures forall k :: 0 <= k < |MarkedScripts(scripts)| ==>
              ScriptStreams(scripts, source)[k] == M3u8Request(source, PlaylistSlice(MarkedScripts(scripts)[k]), AshdiReferer)
  {
    if |scripts| > 0 {
      var rest := scripts[1..];
      var tr := ScriptStreams(rest, source);
      var tm := MarkedScripts(rest);
      ScriptStreamsOfMarked(rest, source);
      if Contains(scripts[0], PlayerMarker) {
        var q := M3u8Request(source, PlaylistSlice(scripts[0]), AshdiReferer);
        assert ScriptStreams(scripts, source) == [q] + tr;
        assert MarkedScripts(scripts) == [scripts[0]] + tm;
        forall k | 0 <= k <= |tm|
          ensures ([q] + tr)[k] == M3u8Request(source, PlaylistSlice(([scripts[0]] + tm)[k]), AshdiReferer)
        {
          ConsIndex(q, tr, k);
          ConsIndex(scripts[0], tm, k);
        }
      } else {
        assert ScriptStreams(scripts, source) == [] + tr == tr;
        assert MarkedScripts(scripts) == tm;
      }
    }
  }

  /** Indexing a sequence with one element put in front. */
  lemma ConsIndex<T>(x: T, t: seq<T>, k: nat)
    requires k <= |t|
    ensures ([x] + t)[k] == if k == 0 then x else t[k - 1]
  {
  }

  /** The marked scripts keep page order: marking a concatenation concatenates
      the marked parts. */
  lemma {:induction false} MarkedScriptsAppend(a: seq<string>, b: seq<string>)
    decreases |a|
    ensures MarkedScripts(a + b) == MarkedScripts(a) + MarkedScripts(b)
  {
    if |a| > 0 {
      assert (a + b)[0] == a[0];
      assert (a + b)[1..] == a[1..] + b;
      MarkedScriptsAppend(a[1..], b);
    } else {
      assert a + b == b;
    }
  }

  /** When every script is marked, nothing is dropped. */
  lemma {:induction false} MarkedScriptsAll(scripts: seq<string>)
    decreases |scripts|
    requires forall i :: 0 <= i < |scripts| ==> Contains(scripts[i], PlayerMarker)
    ensures MarkedScripts(scripts) == scripts
  {
    if |scripts| > 0 {
      MarkedScriptsAll(scripts[1..]);
      assert scripts == [scripts[0]] + scripts[1..];
    }
  }
}

=== FILE: wrappers.dfy ===
/** Failure-compatible carriers used across the model: an optional value (Kotlin's
    nullable results such as `toIntOrNull`, `selectFirst`, `parsedSafe`) and a
    success-or-error result (an exception thrown out of an operation). */
module Wrappers {

  datatype Option<+T> = None | Some(value: T) {

    /** The value, or `default` when absent (Kotlin's `?:`). */
    function GetOr(default: T): T {
      match this
      case Some(v) => v
      case None => default
    }
  }

  datatype Result<+T, +E> = Success(value: T) | Failure(error: E) {

    predicate IsFailure() {
      Failure?
    }

    function PropagateFailure<U>(): Result<U, E>
      requires Failure?
    {
      Failure(error)
    }

    function Extract(): T
      requires Success?
    {
      value
    }
  }
}
